=== FILE: README.md ===
# Backtracking Sudoku solver engine, modelled in Dafny

This project models the search engine of the Python Sudoku shell (`BTSolver`): a
backtracking constraint solver over an N×N board. The board is a constraint network.
Each cell is a variable with a finite domain of candidate values 1..N and an assigned
flag. Each row, column and block is an all-different constraint, given as a list of
cell indices. An undo trail lets the search backtrack.

The model is functional. `Network.Net` holds the cells and constraints. `Trail.State`
pairs a network with its trail. Every engine routine is a pure function from a state
to a new state, with a verdict where the routine has one.

- `Network`: cells, constraints, neighbours (two cells are neighbours when some
  constraint lists both), an assigned cell's value, and the "consistent" predicate.
- `Trail`: the trail as a stack of `Marker | Snapshot(idx, domain, isAssigned)`, and
  undo back to the most recent marker. The central law is `UndoRestoresMarkedState`:
  after a marker, if every change was recorded before it was made, undo gives back
  exactly the state the marker was placed in.
- `Consistency`: `assignmentsCheck`, `forwardChecking`, `norvigCheck` (the same code
  as `getTournCC`), and the `checkConsistency` dispatcher.
- `Selectors`: first-unassigned, MRV, Degree, MRV with degree tie-break (the same
  code as `getTournVar`), and the `selectNextVariable` dispatcher.
- `Orderings`: ascending order, least-constraining-value order (`getValuesLCVOrder`
  and `getTournVal`), and the `getNextValues` dispatcher.
- `Solver`: the recursive `solve` with its value loop.
- `Scenarios`: small concrete networks that show the worked LCV example and the
  quirks of the code.

Modelling decisions:

- A domain is a set. The shell's domain list starts as 1..N and only loses values, so
  "domain order" is ascending order.
- `getAssignment` is `Network.Value`: the least value of an assigned cell's domain.
  On a valid network an assigned cell has exactly one value.
- Python set iteration (the variables of the modified constraints, and a cell's
  neighbours) is fixed to ascending index order.
- The network's record of modified constraints belongs to classes that are not part
  of this model. Forward checking therefore takes the modified constraint indices as
  a parameter. The search passes the constraints that contain the cell it just
  assigned, which is a subset of what the network would report (see "Left out").
- The `hassolution` latch becomes the `Found` result of `Solver.Solve`. A caller
  returns as soon as a callee reports `Found`, so the early return at the top of
  `solve` never fires inside the recursion.
- `MRVwithTieBreaker` is modelled as the code is written: candidates are collected
  against a running minimum that starts at 1000000, and earlier candidates are kept
  when the minimum drops. The docstring at BTSolver.py:184-185 asks for the
  unassigned variable with, first, the smallest domain and, second, the most
  unassigned neighbours. The model follows the code, and
  `Scenarios.TieBreakKeepsStaleCandidate` shows where the code and the docstring
  differ. When there are two or more candidates and none of them has an unassigned
  neighbour, the code indexes an empty list, and the model returns `Err`. The search
  reports this as `Crashed`.
- Norvig's count indexes the first N members of every constraint. Its callers must
  therefore give every constraint at least N members (`Network.Full`).

## Model

| member | source | states |
|---|---|---|
| Consistency.AssignmentsCheck | Sudoku_Python_Shell/src/BTSolver.py:30-34 | true exactly when every constraint is consistent: no two distinct assigned members hold the same value |
| Consistency.Members | Sudoku_Python_Shell/src/BTSolver.py:50-53 | the cells of the modified constraints, each listed once and in strictly increasing order: a cell is listed exactly when some modified constraint contains it |
| Consistency.RecordAndRemove | Sudoku_Python_Shell/src/BTSolver.py:61-62 | removing a value from an unassigned neighbour records the neighbour on the trail first; only that domain changes and it loses exactly that value |
| Consistency.Prune | Sudoku_Python_Shell/src/BTSolver.py:59-64 | the neighbour loop: it removes only the given value and only from unassigned listed cells; it fails exactly when an assigned listed cell holds the value; on success no listed cell holds it |
| Consistency.PruneNeighbors | Sudoku_Python_Shell/src/BTSolver.py:58-64 | an unassigned cell prunes nothing; an assigned cell fails exactly when an assigned neighbour still holds its value; on success each unassigned neighbour loses exactly that value and every other domain is kept; every change is logged |
| Consistency.Revise | Sudoku_Python_Shell/src/BTSolver.py:55-68 | one touched cell passes exactly when its domain is nonempty, no assigned neighbour holds its value, and every constraint containing it is consistent; on success each unassigned neighbour loses exactly this cell's value and nothing else changes |
| Consistency.ReviseAll | Sudoku_Python_Shell/src/BTSolver.py:55-69 | the loop stops at the first failing cell: success means every listed cell passed, failure names a cell that failed after every earlier listed cell passed; domains only shrink and every change is logged |
| Consistency.ReviseAllDecides | Sudoku_Python_Shell/src/BTSolver.py:55-69 | the loop succeeds exactly when every listed cell passes at its turn: its domain, less the values pruned by earlier listed cells, is nonempty, no assigned neighbour holds its value, and every constraint containing it is consistent |
| Consistency.ForwardChecking | Sudoku_Python_Shell/src/BTSolver.py:48-69 | no domain grows and no assigned cell changes; every removed value is taken from an unassigned cell and is held by an assigned touched neighbour; success means every touched cell passed; failure names a touched cell that had an empty domain, a conflicting assigned neighbour, or an inconsistent constraint, and every touched cell of lower index passed |
| Consistency.ForwardCheckingDecides | Sudoku_Python_Shell/src/BTSolver.py:48-69 | forward checking succeeds exactly when every cell of the modified constraints, visited in ascending order, passes at its turn in the sense above |
| Consistency.ForwardCheckingKeepsConsistency | Sudoku_Python_Shell/src/BTSolver.py:48-69 | if every constraint outside the modified ones was consistent and forward checking succeeds, then every constraint is consistent afterwards |
| Consistency.AddValues | Sudoku_Python_Shell/src/BTSolver.py:95-96 | adding one cell's values to the count array raises entry x-1 by one exactly when the cell holds x |
| Consistency.HistogramFrom | Sudoku_Python_Shell/src/BTSolver.py:93-96 | the count loop over members i..N-1 adds, to each entry, the number of those members holding that value |
| Consistency.Histogram | Sudoku_Python_Shell/src/BTSolver.py:92-96 | entry x-1 of the count array equals the number of the constraint's first N members whose domain holds x |
| Consistency.RecordAndAssign | Sudoku_Python_Shell/src/BTSolver.py:101-102 | a cell is recorded on the trail and then assigned a value from its domain; nothing else changes and the change is logged |
| Consistency.PlaceValue | Sudoku_Python_Shell/src/BTSolver.py:99-102 | a cell changes exactly when it is a member of the constraint (from the given position on) still holding the value, and then it becomes assigned that value alone |
| Consistency.PlaceIfSingle | Sudoku_Python_Shell/src/BTSolver.py:98-102 | a value counted once is placed in exactly the members still holding it, which become assigned it alone; a value counted otherwise changes nothing; every change is logged |
| Consistency.PlaceSingles | Sudoku_Python_Shell/src/BTSolver.py:97-102 | for every value counted once, a member that still holds it ends assigned it alone; only constraint members change; a changed cell ends assigned alone the least value (from i+1 on) that it held and that was counted once |
| Consistency.NorvigPass | Sudoku_Python_Shell/src/BTSolver.py:91-102 | the pass over all constraints only collapses cells to one of their own values, marks them assigned, never changes an assigned cell, and logs every change |
| Consistency.NorvigCheck | Sudoku_Python_Shell/src/BTSolver.py:85-104 | a failing forward check is returned unchanged; otherwise the verdict is true exactly when the network after the pass is consistent; true always means consistent |
| Consistency.CheckConsistency | Sudoku_Python_Shell/src/BTSolver.py:340-351 | each name selects its check; any other name runs the assignments check without changing the state; a passing check on a network consistent outside the modified constraints leaves it consistent |
| Selectors.FirstUnassigned | Sudoku_Python_Shell/src/BTSolver.py:137-143 | none exactly when every cell is assigned; otherwise the first unassigned cell |
| Selectors.Mrv | Sudoku_Python_Shell/src/BTSolver.py:150-159 | none exactly when every cell is assigned; otherwise an unassigned cell whose domain is no larger than any unassigned cell's and strictly smaller than every earlier one's, the only cell with that property |
| Selectors.FirstMaxFrom | Sudoku_Python_Shell/src/BTSolver.py:168-178 | the running maximum that starts at 0 and moves only on a strictly larger count finds the first position of largest positive count, and nothing when all counts are 0 |
| Selectors.MostNeighbors | Sudoku_Python_Shell/src/BTSolver.py:203-211 | among listed cells, the first with the most unassigned neighbours, or none when no listed cell has any |
| Selectors.Degree | Sudoku_Python_Shell/src/BTSolver.py:167-179 | the first unassigned cell with the most unassigned neighbours; none exactly when no unassigned cell has an unassigned neighbour, even if cells are still open |
| Selectors.TiesFrom | Sudoku_Python_Shell/src/BTSolver.py:190-197 | the tie list holds exactly the unassigned cells whose domain is no larger than the 1000000 sentinel and than every earlier unassigned cell's |
| Selectors.Ties | Sudoku_Python_Shell/src/BTSolver.py:188-197 | the tie list holds, in increasing index order, exactly the unassigned cells whose domain size is no larger than the sentinel and no larger than that of any earlier unassigned cell |
| Selectors.TieBreak | Sudoku_Python_Shell/src/BTSolver.py:187-211 | none exactly when there is no candidate; a chosen cell is a candidate with the most unassigned neighbours among candidates, strictly more than any earlier candidate; an error exactly when there are several candidates and none has an unassigned neighbour |
| Selectors.TieBreakPicksStrictMax | Sudoku_Python_Shell/src/BTSolver.py:203-211 | a candidate with strictly more unassigned neighbours than every other candidate is the one chosen, and nothing is raised |
| Selectors.TieBreakNoneIffAllAssigned | Sudoku_Python_Shell/src/BTSolver.py:187-199 | on a valid network with N at most 1000000, the tie-break selector reports none exactly when every cell is assigned |
| Selectors.SelectNextVariable | Sudoku_Python_Shell/src/BTSolver.py:353-367 | each name selects its selector (MRV, Degree, the tie-break for both tie-break names, and first-unassigned for any other name); a chosen cell is unassigned; only the tie-break names can fail; with all cells assigned every selector reports none |
| Network.Value | Sudoku_Python_Shell/src/BTSolver.py:59 | an assigned cell with a nonempty domain has a value, which is the least of its domain; an unassigned cell has none |
| Network.Assign | Sudoku_Python_Shell/src/BTSolver.py:327 | the cell ends assigned holding exactly the value, narrowing its domain when it held the value; no other cell changes |
| Network.Remove | Sudoku_Python_Shell/src/BTSolver.py:62 | the cell loses exactly the value and keeps its flag; no other cell changes; on an unassigned cell the network only shrinks |
| Network.Neighbors | Sudoku_Python_Shell/src/BTSolver.py:58 | a cell's neighbours are exactly the other cells sharing a constraint with it, each once, in index order |
| Network.ConstraintsOf | Sudoku_Python_Shell/src/BTSolver.py:66 | exactly the constraints that list the cell |
| Network.UnassignedNeighborsIsCard | Sudoku_Python_Shell/src/BTSolver.py:171-174 | the degree count equals the number of unassigned cells adjacent to the cell |
| Orderings.SupportIsCard | Sudoku_Python_Shell/src/BTSolver.py:285-289 | a value's count equals the number of neighbours whose domain holds it, assigned or not |
| Orderings.Insert | Sudoku_Python_Shell/src/BTSolver.py:292 | inserting a new value into a list in support order keeps the order and adds exactly that value |
| Orderings.SortBySupport | Sudoku_Python_Shell/src/BTSolver.py:292-294 | the sort returns the same values, in ascending support with equal supports in ascending value order |
| Orderings.RankedUnique | Sudoku_Python_Shell/src/BTSolver.py:292-294 | two lists of the same values, both in support order, are equal, so the stable sort's result is determined |
| Orderings.ValuesInOrder | Sudoku_Python_Shell/src/BTSolver.py:251-253 | the domain, each value once, in ascending order |
| Orderings.TournVal | Sudoku_Python_Shell/src/BTSolver.py:283-295 | a permutation of the domain in non-decreasing support, ties in ascending value order |
| Orderings.ValuesLcvOrder | Sudoku_Python_Shell/src/BTSolver.py:264-276 | the same order for a cell with neighbours; an empty list for a cell without any |
| Orderings.GetNextValues | Sudoku_Python_Shell/src/BTSolver.py:369-377 | each name selects its ordering (least-constraining, the tournament ordering, and ascending order for any other name); every value offered belongs to the cell's domain and appears once; all are offered except by least-constraining order on a cell without neighbours |
| Trail.Undo | Sudoku_Python_Shell/src/BTSolver.py:338 | undo keeps the network's shape and pops entries off the top of the trail only |
| Trail.UndoStopsAtLastMarker | Sudoku_Python_Shell/src/BTSolver.py:338 | undo pops exactly through the most recent marker, or empties a trail that has none |
| Trail.UndoRestoresOldest | Sudoku_Python_Shell/src/BTSolver.py:338 | each cell recorded since the last marker gets back its oldest recorded state there; every other cell is unchanged |
| Trail.PlaceMarker | Sudoku_Python_Shell/src/BTSolver.py:323 | the network is unchanged, a marker tops the trail, and an undo right after gives back exactly the state before it |
| Trail.Push | Sudoku_Python_Shell/src/BTSolver.py:324 | the network is unchanged, the new record holds the cell as it is, and an undo gives the same state as without the record |
| Trail.PushThenSetLogged | Sudoku_Python_Shell/src/BTSolver.py:324-327 | recording a cell and then changing it keeps the change logged |
| Trail.LoggedTransitive | Sudoku_Python_Shell/src/BTSolver.py:320-330 | two logged stretches of work make one logged stretch |
| Trail.UndoRestoresMarkedState | Sudoku_Python_Shell/src/BTSolver.py:323-338 | after a marker, if every change was recorded before it was made, undo gives back exactly the state the marker was placed in |
| Solver.Placed | Sudoku_Python_Shell/src/BTSolver.py:323-327 | marker, record and assign: the cell ends assigned exactly the value, no other cell changes, and the change is logged above the new marker |
| Solver.Attempt | Sudoku_Python_Shell/src/BTSolver.py:322-330 | after the check the cell is still assigned the value, one cell fewer is open, every change is logged above the new marker, and a passing check keeps a consistent network consistent |
| Solver.AttemptRunsCheck | Sudoku_Python_Shell/src/BTSolver.py:322-330 | an attempt's verdict and state are those of the configured check, run on the state after marker, record and assign, over the constraints that contain the assigned cell |
| Solver.Step | Sudoku_Python_Shell/src/BTSolver.py:320-335 | a value that finds nothing leaves a state logged above its marker; a found state has nothing left to select; only the tie-break selectors crash |
| Solver.StepFollowsAttempt | Sudoku_Python_Shell/src/BTSolver.py:320-335 | a failing check makes the value exhausted at the check's state; a passing check makes the value's result the recursive search's result from the check's state |
| Solver.TryValues | Sudoku_Python_Shell/src/BTSolver.py:320-338 | a loop that finds nothing returns the starting state exactly; a found state has nothing left to select; only the tie-break selectors crash |
| Solver.TryValuesSkip | Sudoku_Python_Shell/src/BTSolver.py:335-338 | after an exhausted value, undo restores the state exactly, so the loop goes on with the next value from the same state |
| Solver.TryValuesAt | Sudoku_Python_Shell/src/BTSolver.py:320-338 | one turn of the value loop: past the last value it is exhausted at the starting state; a value that does not come back exhausted ends the loop with its result; an exhausted value hands on to the next position |
| Solver.ExhaustionAt | Sudoku_Python_Shell/src/BTSolver.py:335 | the exhaustion flag recorded for each offered value from position i on is whether that value's attempt came back exhausted |
| Solver.FirstDown | Sudoku_Python_Shell/src/BTSolver.py:320-335 | the first position from i on whose value is not exhausted, or the list's end; every value in between is exhausted |
| Solver.TryValuesIsFirstFound | Sudoku_Python_Shell/src/BTSolver.py:320-338 | the loop's result is that of the first value that does not come back exhausted, and the starting state, exhausted, when there is none |
| Solver.TryValuesExhaustedIff | Sudoku_Python_Shell/src/BTSolver.py:320-338 | the loop is exhausted exactly when every offered value is exhausted |
| Solver.TryValuesFirstSuccess | Sudoku_Python_Shell/src/BTSolver.py:320-338 | a loop that is not exhausted returns the result of some offered value, and every earlier value was exhausted |
| Solver.Solve | Sudoku_Python_Shell/src/BTSolver.py:300-338 | found at once when the selector reports none, and a found state has nothing left to select; an exhausted search returns the starting state unchanged; only the tie-break selectors crash; assigned cells never change; nothing below the entry trail is popped; a consistent start gives a consistent found state |
| Solver.SolveExhaustedIff | Sudoku_Python_Shell/src/BTSolver.py:300-338 | the search is exhausted exactly when the selector picks a cell and every value offered for it is exhausted; a selector error ends the search as a crash at the starting state |
| Solver.FoundIsComplete | Sudoku_Python_Shell/src/BTSolver.py:305-317 | from any start, with any selector except Degree (and N at most 1000000 for the tie-break), a found state has every cell assigned, so the completeness check never prints its error |
| Solver.FoundIsSolution | Sudoku_Python_Shell/src/BTSolver.py:307-317 | from a consistent start, with any selector except Degree (and N at most 1000000 for the tie-break), a found state has every cell assigned, every constraint satisfied and every given cell kept |
| Scenarios.LcvWorkedExample | Sudoku_Python_Shell/src/BTSolver.py:264-276 | a cell with domain {1,2,3} whose neighbours hold 1 twice, 2 never and 3 once gets the order 2, 3, 1 |
| Scenarios.LcvLoneCellExhausts | Sudoku_Python_Shell/src/BTSolver.py:266-272 | a cell without neighbours gets no values from the least-constraining order, so the search is exhausted on a one-cell network that has a solution |
| Scenarios.DegreeStopsEarly | Sudoku_Python_Shell/src/BTSolver.py:167-179 | the Degree selector reports none for an open cell without neighbours, so the search reports a solution with an open cell |
| Scenarios.StarDegrees | Sudoku_Python_Shell/src/BTSolver.py:171-174 | the unassigned-neighbour counts of a small star network |
| Scenarios.TieBreakKeepsStaleCandidate | Sudoku_Python_Shell/src/BTSolver.py:190-211 | a cell collected before the minimum fell is chosen for its degree although another open cell has a smaller domain |
| Scenarios.PairDegrees | Sudoku_Python_Shell/src/BTSolver.py:205-208 | two cells that share no constraint have no unassigned neighbours |
| Scenarios.TieBreakCrashes | Sudoku_Python_Shell/src/BTSolver.py:203-211 | two tied cells without unassigned neighbours leave the ranking empty, and the selector fails |
| Scenarios.SearchCrashes | Sudoku_Python_Shell/src/BTSolver.py:306-307 | the selector's failure ends the search as a crash |

## Left out

- `getSolution` and `toSudokuBoard` (BTSolver.py:379-380): they convert the network back to a board in classes that are not part of this model.
- Building the network from the game board (BTSolver.py:16): board loading belongs to classes that are not part of this model. The model starts from any valid network.
- The `print("Error")` at BTSolver.py:313: console output is not modelled. `Solver.FoundIsComplete` shows it cannot happen, from any start, for the first-unassigned and MRV selectors, nor for the tie-break selectors when N is at most 1000000 (the sentinel). `Scenarios.DegreeStopsEarly` shows it can happen for Degree.
- The `time` import: nothing in the engine reads the clock.
- The constructor's fields (BTSolver.py:15-24): they become the `Solver.Config` strings and the `Trail.State` argument.
- `getTournCC` (BTSolver.py:111-131) and `getTournVar` (BTSolver.py:219-245): they are verbatim copies of `norvigCheck` and `MRVwithTieBreaker`. Each algorithm is modelled once, and the dispatchers send both names to it.
- Solver.Solve: the network's bookkeeping of modified constraints belongs to classes that are not part of this model, so the search passes only the constraints that contain the cell just assigned. The network reports every constraint of every cell whose domain or assignment changed since it was last asked: the givens on the first call, and the neighbours pruned and the singles placed by earlier checks. The model's forward check can therefore pass where the program's fails, and its search can then reach a different `Found` state; `Consistency.ForwardChecking` itself takes any set of modified constraints.
- Consistency.ForwardChecking: its verdict is determined for the ascending visiting order (`Consistency.ForwardCheckingDecides`). Python iterates a set of variables, whose order can change which failure is reported first, and whether an empty domain is seen before or after the pruning that emptied it.
- Consistency.ReviseAll: its own contract reads each cell's starting domain, so it leaves the verdict open when an earlier listed cell's pruning empties a later listed cell's domain. `Consistency.ReviseAllDecides` states the exact verdict with the domain each cell has at its turn.
- Solver.Attempt: its own contract states what holds after any check; that the verdict and state are the configured check's is stated by `Solver.AttemptRunsCheck`.
- Solver.Step: its own contract states invariants of the result; its tie to the attempt and to the recursive search is stated by `Solver.StepFollowsAttempt`.
- Solver.TryValues: its own contract states invariants of the result; that each value is tried in turn and the first one not exhausted decides the result is stated by `Solver.TryValuesIsFirstFound`, `Solver.TryValuesExhaustedIff` and `Solver.TryValuesFirstSuccess`.
- Solver.Solve: its own contract does not say when the search is exhausted; `Solver.SolveExhaustedIff` states it.
- Consistency.NorvigPass: it states only that the pass narrows cells to their own values. The per-value guarantee is stated for each constraint by `Consistency.PlaceSingles`, because later constraints can collapse cells again.
- Consistency.NorvigCheck: for the same reason it states only that the pass narrows cells after forward checking, and the verdict; the naked-single placement is stated per constraint by `Consistency.PlaceSingles`.
- Selectors.SelectNextVariable: for Degree it does not promise "none only when every cell is assigned", because the code does not.
- Completeness of the search (that an exhausted search proves there is no solution) is not stated.
- `assignValue`'s handling of cells that are not changeable belongs to the Variable class, which is not part of this model. Assignment always collapses the domain to the value and sets the assigned flag.
- The `IndexError` that `c.vars[i]` raises at BTSolver.py:95 when a constraint has fewer than N members: the model makes `Network.Full` (every constraint has at least N members) a precondition of `Consistency.NorvigCheck` and of the Norvig names in `Consistency.CheckConsistency`, rather than an error result. A Sudoku board's rows, columns and blocks always have N members.
- Python's recursion limit: `solve` recurses once per assignment, and the model's `Solver.Solve` has no depth bound.
- Python exceptions other than these two and the tie-break `IndexError`: none can be raised on a valid network.

=== FILE: consistency.dfy ===
/** The consistency checks and propagators the search runs after every assignment
    (`assignmentsCheck`, `forwardChecking`, `norvigCheck`; `getTournCC` is a verbatim
    copy of `norvigCheck`) and the `checkConsistency` dispatcher. Each returns its
    verdict together with the state it leaves; on `false` the caller undoes that state. */
module Consistency {
  import opened Wrappers
  import opened Domain
  import opened Network
  import opened Trail

  datatype Outcome = Outcome(state: State, ok: bool)

  // ------------------------------------------------------------------
  // assignmentsCheck
  // ------------------------------------------------------------------

  function CheckFrom(net: Net, k: nat): (ok: bool)
    requires WellFormed(net) && k <= |net.constraints|
    ensures ok <==> forall m :: k <= m < |net.constraints| ==> Consistent(net, net.constraints[m])
    decreases |net.constraints| - k
  {
    if k == |net.constraints| then true
    else Consistent(net, net.constraints[k]) && CheckFrom(net, k + 1)
  }

  /** `assignmentsCheck`: scans the constraints in order, stopping at the first
      inconsistent one. True exactly when every constraint is consistent. */
  function AssignmentsCheck(net: Net): (ok: bool)
    requires WellFormed(net)
    ensures ok <==> AllConsistent(net)
  {
    CheckFrom(net, 0)
  }

  // ------------------------------------------------------------------
  // forwardChecking
  // ------------------------------------------------------------------

  predicate ModsValid(net: Net, mods: seq<nat>)
  {
    forall m :: 0 <= m < |mods| ==> mods[m] < |net.constraints|
  }

  /** `v` is a member of one of the modified constraints. */
  predicate Touched(net: Net, mods: seq<nat>, v: nat)
    requires ModsValid(net, mods)
  {
    exists m :: 0 <= m < |mods| && v in net.constraints[mods[m]]
  }

  function MembersFrom(net: Net, mods: seq<nat>, j: nat): (r: seq<nat>)
    requires ModsValid(net, mods) && j <= |net.vars|
    ensures forall p :: 0 <= p < |r| ==> j <= r[p] < |net.vars| && Touched(net, mods, r[p])
    ensures forall v :: j <= v < |net.vars| && Touched(net, mods, v) ==> v in r
    ensures forall p, q :: 0 <= p < q < |r| ==> r[p] < r[q]
    decreases |net.vars| - j
  {
    if j == |net.vars| then []
    else if Touched(net, mods, j) then [j] + MembersFrom(net, mods, j + 1)
    else MembersFrom(net, mods, j + 1)
  }

  /** The variables of the modified constraints, each once, in index order. */
  function Members(net: Net, mods: seq<nat>): (r: seq<nat>)
    requires ModsValid(net, mods)
    ensures Indexes(r, |net.vars|)
    ensures forall v: nat :: v in r <==> v < |net.vars| && Touched(net, mods, v)
    ensures forall p, q :: 0 <= p < q < |r| ==> r[p] < r[q]
  {
    MembersFrom(net, mods, 0)
  }

  /** Some assigned neighbour of `v` still holds `v`'s value. */
  predicate Conflicted(net: Net, v: nat)
    requires v < |net.vars|
  {
    var a := Value(net.vars[v]);
    a.Some? && exists n :: 0 <= n < |net.vars| && Adjacent(net, v, n) && net.vars[n].isAssigned && a.value in net.vars[n].domain
  }

  /** No neighbour of `v` holds `v`'s value. */
  predicate Settled(net: Net, v: nat)
    requires v < |net.vars|
  {
    var a := Value(net.vars[v]);
    a.Some? ==> forall n :: 0 <= n < |net.vars| && Adjacent(net, v, n) ==> a.value !in net.vars[n].domain
  }

  /** What the turn of `v` takes from cell `j`: `v`'s value when `v` is assigned and
      `j` is an unassigned neighbour, and nothing otherwise. */
  function PrunedAt(net: Net, v: nat, j: nat): set<int>
    requires v < |net.vars| && j < |net.vars|
  {
    var a := Value(net.vars[v]);
    if a.Some? && Adjacent(net, v, j) && !net.vars[j].isAssigned then {a.value} else {}
  }

  lemma SameAssignmentsKeepPruned(a: Net, b: Net, v: nat, j: nat)
    requires SameAssignments(a, b) && v < |a.vars| && j < |a.vars|
    ensures PrunedAt(a, v, j) == PrunedAt(b, v, j)
  {
    assert Value(a.vars[v]) == Value(b.vars[v]);
    assert Adjacent(a, v, j) <==> Adjacent(b, v, j);
  }

  lemma SameAssignmentsKeepVerdicts(a: Net, b: Net, v: nat)
    requires WellFormed(a) && SameAssignments(a, b) && v < |a.vars|
    ensures Conflicted(a, v) <==> Conflicted(b, v)
    ensures ConstraintsHold(a, v) <==> ConstraintsHold(b, v)
  {
    forall k | 0 <= k < |a.constraints|
      ensures Consistent(a, a.constraints[k]) <==> Consistent(b, b.constraints[k])
    {
      SameAssignmentsKeepConsistency(a, b, a.constraints[k]);
    }
  }

  lemma ShrinksKeepSettled(a: Net, b: Net, v: nat)
    requires Shrinks(a, b) && v < |a.vars| && Settled(a, v)
    ensures Settled(b, v)
  {
  }

  /** Log cell `n` on the trail, then remove `a` from its domain. */
  function RecordAndRemove(st: State, n: nat, a: int): (r: State)
    requires StateValid(st) && n < |st.net.vars| && !st.net.vars[n].isAssigned
    ensures StateValid(r) && Logged(st, r) && Shrinks(st.net, r.net)
    ensures r.net.vars[n].domain == st.net.vars[n].domain - {a}
    ensures forall j :: 0 <= j < |st.net.vars| && j != n ==> r.net.vars[j] == st.net.vars[j]
  {
    var pushed := Push(st, n);
    var r := State(Remove(pushed.net, n, a), pushed.trail);
    PushThenSetLogged(st, n, r.net.vars[n]);
    assert r == State(st.net.(vars := st.net.vars[n := r.net.vars[n]]), Push(st, n).trail);
    r
  }

  /** The neighbour loop of `forwardChecking` for an assigned value `a`: an unassigned
      neighbour holding `a` is recorded and loses it; an assigned one holding `a`
      fails the check. */
  function Prune(st: State, a: int, ns: seq<nat>): (r: Outcome)
    requires StateValid(st) && Indexes(ns, |st.net.vars|)
    ensures StateValid(r.state) && Logged(st, r.state) && Shrinks(st.net, r.state.net)
    ensures forall j, x :: 0 <= j < |st.net.vars| && x in st.net.vars[j].domain && x !in r.state.net.vars[j].domain
              ==> x == a && j in ns && !st.net.vars[j].isAssigned
    ensures r.ok <==> forall q :: 0 <= q < |ns| && st.net.vars[ns[q]].isAssigned ==> a !in st.net.vars[ns[q]].domain
    ensures r.ok ==> forall q :: 0 <= q < |ns| ==> a !in r.state.net.vars[ns[q]].domain
    decreases |ns|
  {
    if ns == [] then Outcome(st, true)
    else
      var n := ns[0];
      if a in st.net.vars[n].domain then
        if !st.net.vars[n].isAssigned then
          var s1 := RecordAndRemove(st, n, a);
          var r := Prune(s1, a, ns[1..]);
          LoggedTransitive(st, s1, r.state);
          ShrinksTransitive(st.net, s1.net, r.state.net);
          PruneRemoveStep(st.net, s1.net, r, a, ns);
          r
        else Outcome(st, false)
      else
        var r := Prune(st, a, ns[1..]);
        PruneSkipStep(st.net, r, a, ns);
        r
  }

  /** The step of `Prune` past a first neighbour without `a`: what the rest of the
      loop promises carries over to the whole list. */
  lemma PruneSkipStep(st: Net, r: Outcome, a: int, ns: seq<nat>)
    requires Indexes(ns, |st.vars|) && ns != [] && a !in st.vars[ns[0]].domain
    requires Shrinks(st, r.state.net)
    requires forall j, x :: 0 <= j < |st.vars| && x in st.vars[j].domain && x !in r.state.net.vars[j].domain
               ==> x == a && j in ns[1..] && !st.vars[j].isAssigned
    requires r.ok <==> forall q :: 0 <= q < |ns[1..]| && st.vars[ns[1..][q]].isAssigned ==> a !in st.vars[ns[1..][q]].domain
    requires r.ok ==> forall q :: 0 <= q < |ns[1..]| ==> a !in r.state.net.vars[ns[1..][q]].domain
    ensures forall j, x :: 0 <= j < |st.vars| && x in st.vars[j].domain && x !in r.state.net.vars[j].domain
              ==> x == a && j in ns && !st.vars[j].isAssigned
    ensures r.ok <==> forall q :: 0 <= q < |ns| && st.vars[ns[q]].isAssigned ==> a !in st.vars[ns[q]].domain
    ensures r.ok ==> forall q :: 0 <= q < |ns| ==> a !in r.state.net.vars[ns[q]].domain
  {
    assert forall q :: 1 <= q < |ns| ==> ns[q] == ns[1..][q - 1];
    assert forall j :: j in ns[1..] ==> j in ns;
  }

  /** The step of `Prune` that removes `a` from the unassigned first neighbour: what
      the rest of the loop promises about the narrowed network carries back to the
      network before the removal. */
  lemma PruneRemoveStep(st: Net, s1: Net, r: Outcome, a: int, ns: seq<nat>)
    requires Indexes(ns, |st.vars|) && ns != [] && !st.vars[ns[0]].isAssigned
    requires Shrinks(st, s1) && Shrinks(s1, r.state.net)
    requires s1.vars[ns[0]].domain == st.vars[ns[0]].domain - {a}
    requires forall j :: 0 <= j < |st.vars| && j != ns[0] ==> s1.vars[j] == st.vars[j]
    requires forall j, x :: 0 <= j < |s1.vars| && x in s1.vars[j].domain && x !in r.state.net.vars[j].domain
               ==> x == a && j in ns[1..] && !s1.vars[j].isAssigned
    requires r.ok <==> forall q :: 0 <= q < |ns[1..]| && s1.vars[ns[1..][q]].isAssigned ==> a !in s1.vars[ns[1..][q]].domain
    requires r.ok ==> forall q :: 0 <= q < |ns[1..]| ==> a !in r.state.net.vars[ns[1..][q]].domain
    ensures forall j, x :: 0 <= j < |st.vars| && x in st.vars[j].domain && x !in r.state.net.vars[j].domain
              ==> x == a && j in ns && !st.vars[j].isAssigned
    ensures r.ok <==> forall q :: 0 <= q < |ns| && st.vars[ns[q]].isAssigned ==> a !in st.vars[ns[q]].domain
    ensures r.ok ==> forall q :: 0 <= q < |ns| ==> a !in r.state.net.vars[ns[q]].domain
  {
    assert forall q :: 1 <= q < |ns| ==> ns[q] == ns[1..][q - 1];
    assert forall j :: j in ns[1..] ==> j in ns;
  }

  /** Every value `b` lost relative to `a` belonged to an unassigned cell and was the
      value of an assigned neighbour among `vs`. */
  predicate PrunedBy(a: Net, b: Net, vs: seq<nat>)
    requires |a.vars| == |b.vars| && Indexes(vs, |a.vars|)
  {
    forall j, x :: 0 <= j < |a.vars| && x in a.vars[j].domain && x !in b.vars[j].domain
      ==> !a.vars[j].isAssigned
          && exists v :: v in vs && v < |a.vars| && Adjacent(a, v, j) && Holds(a.vars[v], x)
  }

  lemma PrunedByAt(a: Net, b: Net, vs: seq<nat>, j: nat, x: int)
    requires |a.vars| == |b.vars| && Indexes(vs, |a.vars|) && PrunedBy(a, b, vs)
    requires j < |a.vars| && x in a.vars[j].domain && x !in b.vars[j].domain
    ensures !a.vars[j].isAssigned
    ensures exists v :: v in vs && v < |a.vars| && Adjacent(a, v, j) && Holds(a.vars[v], x)
  {
  }

  lemma PrunedByWiden(a: Net, b: Net, small: seq<nat>, big: seq<nat>)
    requires |a.vars| == |b.vars| && Indexes(small, |a.vars|) && Indexes(big, |a.vars|)
    requires PrunedBy(a, b, small) && forall v :: v in small ==> v in big
    ensures PrunedBy(a, b, big)
  {
    forall j, x | 0 <= j < |a.vars| && x in a.vars[j].domain && x !in b.vars[j].domain
      ensures !a.vars[j].isAssigned
      ensures exists v :: v in big && v < |a.vars| && Adjacent(a, v, j) && Holds(a.vars[v], x)
    {
      PrunedByAt(a, b, small, j, x);
    }
  }

  /** `v` passed forward checking from `a`, leaving `b` with `v`'s value gone from its
      neighbours. */
  predicate Passed(a: Net, b: Net, v: nat)
    requires WellFormed(a) && |a.vars| == |b.vars| && v < |a.vars|
  {
    a.vars[v].domain != {} && !Conflicted(a, v) && ConstraintsHold(a, v) && Settled(b, v)
  }

  /** What makes forward checking fail at `v`: an empty domain at its turn (read in
      the state left behind), an assigned neighbour holding its value, or an
      inconsistent constraint listing it. */
  predicate Failed(a: Net, b: Net, v: nat)
    requires WellFormed(a) && |a.vars| == |b.vars| && v < |a.vars|
  {
    b.vars[v].domain == {} || Conflicted(a, v) || !ConstraintsHold(a, v)
  }

  lemma PruneSettles(st: State, pr: Outcome, v: nat)
    requires StateValid(st) && v < |st.net.vars| && Value(st.net.vars[v]).Some?
    requires Shrinks(st.net, pr.state.net)
    requires pr.ok ==> forall q :: 0 <= q < |Neighbors(st.net, v)| ==>
               Value(st.net.vars[v]).value !in pr.state.net.vars[Neighbors(st.net, v)[q]].domain
    requires pr.ok
    ensures Settled(pr.state.net, v)
  {
    var ns := Neighbors(st.net, v);
    assert Value(pr.state.net.vars[v]) == Value(st.net.vars[v]);
    forall n | 0 <= n < |pr.state.net.vars| && Adjacent(pr.state.net, v, n)
      ensures Value(st.net.vars[v]).value !in pr.state.net.vars[n].domain
    {
      assert n in ns;
      var q :| 0 <= q < |ns| && ns[q] == n;
    }
  }

  /** The `forwardChecking` body for one variable `v` of a modified constraint: fail
      on an empty domain; otherwise prune `v`'s value from its neighbours, and finally
      check every constraint that lists `v`. */
  function Revise(st: State, v: nat): (r: Outcome)
    requires StateValid(st) && v < |st.net.vars|
    ensures StateValid(r.state) && Logged(st, r.state) && Shrinks(st.net, r.state.net)
    ensures PrunedBy(st.net, r.state.net, [v])
    ensures r.ok <==> st.net.vars[v].domain != {} && !Conflicted(st.net, v) && ConstraintsHold(st.net, v)
    ensures r.ok ==> Passed(st.net, r.state.net, v)
    ensures !r.ok ==> Failed(st.net, r.state.net, v)
    ensures r.ok ==> forall j :: 0 <= j < |st.net.vars| ==>
              r.state.net.vars[j].domain == st.net.vars[j].domain - PrunedAt(st.net, v, j)
  {
    if st.net.vars[v].domain == {} then
      LoggedReflexive(st);
      Outcome(st, false)
    else
      var pr := PruneNeighbors(st, v);
      SameAssignmentsKeepVerdicts(st.net, pr.state.net, v);
      if !pr.ok then pr
      else Outcome(pr.state, ConstraintsHold(pr.state.net, v))
  }

  /** The neighbour loop for `v`; nothing to prune when `v` is unassigned. */
  function PruneNeighbors(st: State, v: nat): (r: Outcome)
    requires StateValid(st) && v < |st.net.vars|
    ensures StateValid(r.state) && Logged(st, r.state) && Shrinks(st.net, r.state.net)
    ensures PrunedBy(st.net, r.state.net, [v])
    ensures r.ok <==> !Conflicted(st.net, v)
    ensures r.ok ==> Settled(r.state.net, v)
    ensures r.ok ==> forall j :: 0 <= j < |st.net.vars| ==>
              r.state.net.vars[j].domain == st.net.vars[j].domain - PrunedAt(st.net, v, j)
  {
    match Value(st.net.vars[v])
    case None =>
      LoggedReflexive(st);
      Outcome(st, true)
    case Some(a) =>
      var ns := Neighbors(st.net, v);
      var pr := Prune(st, a, ns);
      PruneFacts(st, pr, v);
      pr
  }

  lemma PruneFacts(st: State, pr: Outcome, v: nat)
    requires StateValid(st) && v < |st.net.vars| && Value(st.net.vars[v]).Some?
    requires Shrinks(st.net, pr.state.net)
    requires var a := Value(st.net.vars[v]).value; var ns := Neighbors(st.net, v);
             && (forall j, x :: 0 <= j < |st.net.vars| && x in st.net.vars[j].domain && x !in pr.state.net.vars[j].domain
                   ==> x == a && j in ns && !st.net.vars[j].isAssigned)
             && (pr.ok <==> forall q :: 0 <= q < |ns| && st.net.vars[ns[q]].isAssigned ==> a !in st.net.vars[ns[q]].domain)
             && (pr.ok ==> forall q :: 0 <= q < |ns| ==> a !in pr.state.net.vars[ns[q]].domain)
    ensures PrunedBy(st.net, pr.state.net, [v])
    ensures pr.ok <==> !Conflicted(st.net, v)
    ensures pr.ok ==> Settled(pr.state.net, v)
    ensures pr.ok ==> forall j :: 0 <= j < |st.net.vars| ==>
              pr.state.net.vars[j].domain == st.net.vars[j].domain - PrunedAt(st.net, v, j)
  {
    var ns := Neighbors(st.net, v);
    if pr.ok {
      PruneTakesExactly(st, pr, v);
    }
    assert v in [v];
    assert forall q :: 0 <= q < |ns| ==> ns[q] in ns;
    if pr.ok {
      PruneSettles(st, pr, v);
    } else {
      var q :| 0 <= q < |ns| && st.net.vars[ns[q]].isAssigned && Value(st.net.vars[v]).value in st.net.vars[ns[q]].domain;
      assert Adjacent(st.net, v, ns[q]);
    }
  }

  /** A passing neighbour loop takes exactly `v`'s value from each unassigned
      neighbour and nothing from any other cell. */
  lemma PruneTakesExactly(st: State, pr: Outcome, v: nat)
    requires StateValid(st) && v < |st.net.vars| && Value(st.net.vars[v]).Some?
    requires Shrinks(st.net, pr.state.net)
    requires var a := Value(st.net.vars[v]).value; var ns := Neighbors(st.net, v);
             && (forall j, x :: 0 <= j < |st.net.vars| && x in st.net.vars[j].domain && x !in pr.state.net.vars[j].domain
                   ==> x == a && j in ns && !st.net.vars[j].isAssigned)
             && (pr.ok ==> forall q :: 0 <= q < |ns| ==> a !in pr.state.net.vars[ns[q]].domain)
    requires pr.ok
    ensures forall j :: 0 <= j < |st.net.vars| ==>
              pr.state.net.vars[j].domain == st.net.vars[j].domain - PrunedAt(st.net, v, j)
  {
    var a := Value(st.net.vars[v]).value;
    var ns := Neighbors(st.net, v);
    forall j | 0 <= j < |st.net.vars|
      ensures pr.state.net.vars[j].domain == st.net.vars[j].domain - PrunedAt(st.net, v, j)
    {
      var before := st.net.vars[j].domain;
      var after := pr.state.net.vars[j].domain;
      assert after <= before;
      if Adjacent(st.net, v, j) && !st.net.vars[j].isAssigned {
        assert PrunedAt(st.net, v, j) == {a};
        assert j in ns;
        var q :| 0 <= q < |ns| && ns[q] == j;
        assert a !in after;
        assert forall x :: x in before && x !in after ==> x == a;
      } else {
        assert PrunedAt(st.net, v, j) == {};
        assert forall x :: x in before ==> x in after;
      }
    }
  }

  lemma PassedCarries(st: Net, s1: Net, r: Net, w: nat)
    requires WellFormed(st) && Shrinks(st, s1) && Shrinks(s1, r) && w < |st.vars|
    requires Passed(s1, r, w)
    ensures Passed(st, r, w)
  {
    SameAssignmentsKeepVerdicts(st, s1, w);
  }

  lemma FailedCarries(st: Net, s1: Net, r: Net, w: nat)
    requires WellFormed(st) && Shrinks(st, s1) && Shrinks(s1, r) && w < |st.vars|
    requires Failed(s1, r, w)
    ensures Failed(st, r, w)
  {
    SameAssignmentsKeepVerdicts(st, s1, w);
  }

  lemma PrunedByCombines(st: Net, s1: Net, r: Net, vs: seq<nat>)
    requires WellFormed(st) && Shrinks(st, s1) && Shrinks(s1, r) && Indexes(vs, |st.vars|) && vs != []
    requires PrunedBy(st, s1, [vs[0]]) && PrunedBy(s1, r, vs[1..])
    ensures PrunedBy(st, r, vs)
  {
    forall j, x | 0 <= j < |st.vars| && x in st.vars[j].domain && x !in r.vars[j].domain
      ensures !st.vars[j].isAssigned
      ensures exists v :: v in vs && v < |st.vars| && Adjacent(st, v, j) && Holds(st.vars[v], x)
    {
      if x in s1.vars[j].domain {
        PrunedByAt(s1, r, vs[1..], j, x);
        var v :| v in vs[1..] && v < |s1.vars| && Adjacent(s1, v, j) && Holds(s1.vars[v], x);
        assert v in vs;
        assert Value(st.vars[v]) == Value(s1.vars[v]);
      } else {
        PrunedByAt(st, s1, [vs[0]], j, x);
        var v :| v in [vs[0]] && v < |st.vars| && Adjacent(st, v, j) && Holds(st.vars[v], x);
        assert v in vs;
      }
    }
  }

  /** The domain of cell `j` when the turn of `vs[q]` comes, every earlier turn having
      passed and pruned its neighbours. */
  function DomainAtTurn(net: Net, vs: seq<nat>, q: nat, j: nat): set<int>
    requires Indexes(vs, |net.vars|) && q <= |vs| && j < |net.vars|
  {
    if q == 0 then net.vars[j].domain
    else DomainAtTurn(net, vs, q - 1, j) - PrunedAt(net, vs[q - 1], j)
  }

  /** The turn of `vs[q]` passes: its domain at that turn is nonempty, no assigned
      neighbour holds its value, and every constraint listing it is consistent. */
  predicate PassesTurn(net: Net, vs: seq<nat>, q: nat)
    requires WellFormed(net) && Indexes(vs, |net.vars|) && q < |vs|
  {
    DomainAtTurn(net, vs, q, vs[q]) != {} && !Conflicted(net, vs[q]) && ConstraintsHold(net, vs[q])
  }

  /** The outer loop of `forwardChecking` over the variables `vs`, stopping at the
      first failure. */
  function ReviseAll(st: State, vs: seq<nat>): (r: Outcome)
    requires StateValid(st) && Indexes(vs, |st.net.vars|)
    ensures StateValid(r.state) && Logged(st, r.state) && Shrinks(st.net, r.state.net)
    ensures PrunedBy(st.net, r.state.net, vs)
    ensures r.ok ==> forall q :: 0 <= q < |vs| ==> Passed(st.net, r.state.net, vs[q])
    ensures !r.ok ==> exists q :: 0 <= q < |vs| && Failed(st.net, r.state.net, vs[q])
                                  && forall p :: 0 <= p < q ==> Passed(st.net, r.state.net, vs[p])
    decreases |vs|
  {
    if vs == [] then
      LoggedReflexive(st);
      Outcome(st, true)
    else
      var s1 := Revise(st, vs[0]);
      if !s1.ok then
        PrunedByWiden(st.net, s1.state.net, [vs[0]], vs);
        assert Failed(st.net, s1.state.net, vs[0]);
        s1
      else
        var r := ReviseAll(s1.state, vs[1..]);
        LoggedTransitive(st, s1.state, r.state);
        ShrinksTransitive(st.net, s1.state.net, r.state.net);
        PrunedByCombines(st.net, s1.state.net, r.state.net, vs);
        ReviseAllVerdict(st.net, s1.state.net, r, vs);
        r
  }

  lemma ReviseAllVerdict(st: Net, s1: Net, r: Outcome, vs: seq<nat>)
    requires WellFormed(st) && Shrinks(st, s1) && Shrinks(s1, r.state.net) && Indexes(vs, |st.vars|) && vs != []
    requires Passed(st, s1, vs[0])
    requires r.ok ==> forall q :: 0 <= q < |vs[1..]| ==> Passed(s1, r.state.net, vs[1..][q])
    requires !r.ok ==> exists q :: 0 <= q < |vs[1..]| && Failed(s1, r.state.net, vs[1..][q])
                                   && forall p :: 0 <= p < q ==> Passed(s1, r.state.net, vs[1..][p])
    ensures r.ok ==> forall q :: 0 <= q < |vs| ==> Passed(st, r.state.net, vs[q])
    ensures !r.ok ==> exists q :: 0 <= q < |vs| && Failed(st, r.state.net, vs[q])
                                  && forall p :: 0 <= p < q ==> Passed(st, r.state.net, vs[p])
  {
    var tail := vs[1..];
    ShrinksKeepSettled(s1, r.state.net, vs[0]);
    if r.ok {
      forall q | 0 <= q < |vs| ensures Passed(st, r.state.net, vs[q]) {
        if q > 0 {
          assert vs[q] == tail[q - 1];
          PassedCarries(st, s1, r.state.net, vs[q]);
        }
      }
    } else {
      var q :| 0 <= q < |tail| && Failed(s1, r.state.net, tail[q])
               && forall p :: 0 <= p < q ==> Passed(s1, r.state.net, tail[p]);
      assert vs[q + 1] == tail[q];
      FailedCarries(st, s1, r.state.net, tail[q]);
      forall p | 0 <= p < q + 1 ensures Passed(st, r.state.net, vs[p]) {
        if p > 0 {
          assert vs[p] == tail[p - 1];
          PassedCarries(st, s1, r.state.net, vs[p]);
        }
      }
    }
  }

  /** After the first turn passed, the turns of the rest of the list see, from the
      state it left, the domains they would see from the start. */
  lemma {:induction false} DomainAtTurnShift(st: Net, s1: Net, vs: seq<nat>, q: nat, j: nat)
    requires SameAssignments(st, s1) && Indexes(vs, |st.vars|) && vs != [] && q < |vs| && j < |st.vars|
    requires forall i :: 0 <= i < |st.vars| ==> s1.vars[i].domain == st.vars[i].domain - PrunedAt(st, vs[0], i)
    ensures Indexes(vs[1..], |s1.vars|)
    ensures DomainAtTurn(s1, vs[1..], q, j) == DomainAtTurn(st, vs, q + 1, j)
  {
    assert Indexes(vs[1..], |s1.vars|) by {
      assert forall p :: 0 <= p < |vs[1..]| ==> vs[1..][p] == vs[p + 1];
    }
    if q > 0 {
      DomainAtTurnShift(st, s1, vs, q - 1, j);
      assert vs[1..][q - 1] == vs[q];
      SameAssignmentsKeepPruned(st, s1, vs[q], j);
    }
  }

  /** The forward-checking loop passes exactly when every turn passes, each turn
      reading the domain its cell has by then. */
  lemma {:induction false} ReviseAllDecides(st: State, vs: seq<nat>)
    requires StateValid(st) && Indexes(vs, |st.net.vars|)
    ensures ReviseAll(st, vs).ok <==> forall q :: 0 <= q < |vs| ==> PassesTurn(st.net, vs, q)
    decreases |vs|
  {
    if vs != [] {
      var s1 := Revise(st, vs[0]);
      assert DomainAtTurn(st.net, vs, 0, vs[0]) == st.net.vars[vs[0]].domain;
      assert PassesTurn(st.net, vs, 0) <==> s1.ok;
      if !s1.ok {
        assert ReviseAll(st, vs) == s1;
      } else {
        assert ReviseAll(st, vs).ok == ReviseAll(s1.state, vs[1..]).ok;
        PassesTurnShift(st, s1, vs);
        ReviseAllDecides(s1.state, vs[1..]);
      }
    }
  }

  /** After a passing first turn, the later turns pass from the state it left exactly
      when they pass from the start. */
  lemma PassesTurnShift(st: State, s1: Outcome, vs: seq<nat>)
    requires StateValid(st) && Indexes(vs, |st.net.vars|) && vs != []
    requires s1 == Revise(st, vs[0]) && s1.ok && PassesTurn(st.net, vs, 0)
    ensures StateValid(s1.state) && Indexes(vs[1..], |s1.state.net.vars|)
    ensures (forall q :: 0 <= q < |vs| ==> PassesTurn(st.net, vs, q))
            <==> forall q :: 0 <= q < |vs[1..]| ==> PassesTurn(s1.state.net, vs[1..], q)
  {
    var tail := vs[1..];
    assert Indexes(tail, |s1.state.net.vars|) by {
      assert forall p :: 0 <= p < |tail| ==> tail[p] == vs[p + 1];
    }
    forall q | 0 <= q < |tail|
      ensures PassesTurn(s1.state.net, tail, q) <==> PassesTurn(st.net, vs, q + 1)
    {
      DomainAtTurnShift(st.net, s1.state.net, vs, q, vs[q + 1]);
      assert tail[q] == vs[q + 1];
      SameAssignmentsKeepVerdicts(st.net, s1.state.net, vs[q + 1]);
    }
    assert forall q :: 1 <= q < |vs| ==> (PassesTurn(st.net, vs, q) <==> PassesTurn(s1.state.net, tail, q - 1));
  }

  /** Every value `b` lost relative to `a` belonged to an unassigned cell and was the
      value of an assigned neighbour that is a member of one of the constraints `mods`. */
  predicate PrunedByTouched(a: Net, b: Net, mods: seq<nat>)
    requires |a.vars| == |b.vars| && ModsValid(a, mods)
  {
    forall j: nat, x :: j < |a.vars| && x in a.vars[j].domain && x !in b.vars[j].domain
      ==> !a.vars[j].isAssigned
          && exists v: nat :: v < |a.vars| && Touched(a, mods, v) && Adjacent(a, v, j) && Holds(a.vars[v], x)
  }

  /** The first touched variable, in the ascending visiting order, at which the check
      fails is `v`: every touched variable before it passed. */
  predicate FailsFirstAt(a: Net, b: Net, mods: seq<nat>, v: nat)
    requires WellFormed(a) && |a.vars| == |b.vars| && ModsValid(a, mods)
  {
    && v < |a.vars| && Touched(a, mods, v) && Failed(a, b, v)
    && forall w: nat :: w < v && Touched(a, mods, w) ==> Passed(a, b, w)
  }

  /** `forwardChecking`, run over the variables of the modified constraints `mods`.
      It only narrows the domains of unassigned cells, each removed value being the
      value of an assigned touched neighbour, and it records every cell before first
      changing it. It fails exactly when some touched variable has an empty domain at
      its turn, has an assigned neighbour holding its value, or sits in an
      inconsistent constraint, and then every touched variable before the failing one
      passed; on success every touched variable's value is gone from all its
      neighbours. */
  function ForwardChecking(st: State, mods: seq<nat>): (r: Outcome)
    requires StateValid(st) && ModsValid(st.net, mods)
    ensures StateValid(r.state) && Logged(st, r.state) && Shrinks(st.net, r.state.net)
    ensures PrunedByTouched(st.net, r.state.net, mods)
    ensures r.ok ==> forall v: nat :: v < |st.net.vars| && Touched(st.net, mods, v) ==> Passed(st.net, r.state.net, v)
    ensures !r.ok ==> exists v: nat :: FailsFirstAt(st.net, r.state.net, mods, v)
  {
    var vs := Members(st.net, mods);
    var r := ReviseAll(st, vs);
    MembersCoverTouched(st.net, mods, vs, r);
    r
  }

  lemma MembersCoverTouched(st: Net, mods: seq<nat>, vs: seq<nat>, r: Outcome)
    requires Valid(st) && ModsValid(st, mods) && vs == Members(st, mods) && Shrinks(st, r.state.net)
    requires PrunedBy(st, r.state.net, vs)
    requires r.ok ==> forall q :: 0 <= q < |vs| ==> Passed(st, r.state.net, vs[q])
    requires !r.ok ==> exists q :: 0 <= q < |vs| && Failed(st, r.state.net, vs[q])
                                  && forall p :: 0 <= p < q ==> Passed(st, r.state.net, vs[p])
    ensures PrunedByTouched(st, r.state.net, mods)
    ensures r.ok ==> forall v: nat :: v < |st.vars| && Touched(st, mods, v) ==> Passed(st, r.state.net, v)
    ensures !r.ok ==> exists v: nat :: FailsFirstAt(st, r.state.net, mods, v)
  {
    forall j: nat, x | j < |st.vars| && x in st.vars[j].domain && x !in r.state.net.vars[j].domain
      ensures !st.vars[j].isAssigned
              && exists v: nat :: v < |st.vars| && Touched(st, mods, v) && Adjacent(st, v, j)
                             && Holds(st.vars[v], x)
    {
      PrunedByAt(st, r.state.net, vs, j, x);
      var v :| v in vs && v < |st.vars| && Adjacent(st, v, j) && Holds(st.vars[v], x);
      assert Touched(st, mods, v);
    }
    if r.ok {
      forall v: nat | v < |st.vars| && Touched(st, mods, v) ensures Passed(st, r.state.net, v) {
        var q :| 0 <= q < |vs| && vs[q] == v;
      }
    } else {
      var q :| 0 <= q < |vs| && Failed(st, r.state.net, vs[q])
               && forall p :: 0 <= p < q ==> Passed(st, r.state.net, vs[p]);
      FirstFailedMember(st, r.state.net, mods, vs, q);
    }
  }

  /** The first failing position of the ascending member list is the least failing
      touched variable. */
  lemma FirstFailedMember(a: Net, b: Net, mods: seq<nat>, vs: seq<nat>, q: nat)
    requires WellFormed(a) && |a.vars| == |b.vars| && ModsValid(a, mods) && vs == Members(a, mods)
    requires q < |vs| && Failed(a, b, vs[q]) && forall p :: 0 <= p < q ==> Passed(a, b, vs[p])
    ensures FailsFirstAt(a, b, mods, vs[q])
  {
    assert vs[q] in vs;
    forall w: nat | w < vs[q] && Touched(a, mods, w) ensures Passed(a, b, w) {
      var p :| 0 <= p < |vs| && vs[p] == w;
      assert p < q;
    }
  }

  /** Forward checking passes exactly when every turn over the variables of the
      modified constraints, in ascending order, passes. */
  lemma ForwardCheckingDecides(st: State, mods: seq<nat>)
    requires StateValid(st) && ModsValid(st.net, mods)
    ensures var vs := Members(st.net, mods);
            ForwardChecking(st, mods).ok <==> forall q :: 0 <= q < |vs| ==> PassesTurn(st.net, vs, q)
  {
    ReviseAllDecides(st, Members(st.net, mods));
  }

  /** Forward checking restores full consistency: when every constraint outside the
      modified ones was consistent and the check passes, every constraint is. */
  lemma ForwardCheckingKeepsConsistency(st: State, mods: seq<nat>)
    requires StateValid(st) && ModsValid(st.net, mods)
    ensures (ForwardChecking(st, mods).ok
             && forall m :: 0 <= m < |st.net.constraints| && m !in mods ==> Consistent(st.net, st.net.constraints[m]))
            ==> AllConsistent(ForwardChecking(st, mods).state.net)
  {
    var r := ForwardChecking(st, mods);
    if !r.ok || exists m :: 0 <= m < |st.net.constraints| && m !in mods && !Consistent(st.net, st.net.constraints[m]) {
      return;
    }
    forall k | 0 <= k < |st.net.constraints| ensures Consistent(r.state.net, r.state.net.constraints[k]) {
      var c := st.net.constraints[k];
      if k in mods && c != [] {
        var m :| 0 <= m < |mods| && mods[m] == k;
        assert c[0] in st.net.constraints[mods[m]];
        assert Passed(st.net, r.state.net, c[0]);
      }
      SameAssignmentsKeepConsistency(st.net, r.state.net, c);
    }
  }

  // ------------------------------------------------------------------
  // norvigCheck
  // ------------------------------------------------------------------

  /** How many of the constraint's first N members still hold `x`. */
  function Tally(net: Net, c: seq<nat>, x: int): nat
    requires Indexes(c, |net.vars|) && |c| >= net.size
  {
    CountHolding(net, c[..net.size], x)
  }

  /** Raise the count of each listed value by one (value `x` is counted at entry `x - 1`). */
  function AddValues(counts: seq<nat>, vals: seq<int>): (r: seq<nat>)
    requires Ascending(vals) && forall p :: 0 <= p < |vals| ==> 1 <= vals[p] <= |counts|
    ensures |r| == |counts|
    ensures forall k :: 0 <= k < |counts| ==> r[k] == counts[k] + if k + 1 in vals then 1 else 0
    decreases |vals|
  {
    if vals == [] then counts
    else
      var r := AddValues(counts[vals[0] - 1 := counts[vals[0] - 1] + 1], vals[1..]);
      assert forall z :: z in vals <==> z == vals[0] || z in vals[1..] by {
        assert vals == [vals[0]] + vals[1..];
      }
      assert vals[0] !in vals[1..];
      r
  }

  /** The count loop over members `i..N-1`, added onto `acc`. */
  function HistogramFrom(net: Net, c: seq<nat>, i: nat, acc: seq<nat>): (r: seq<nat>)
    requires Valid(net) && Indexes(c, |net.vars|) && |c| >= net.size && i <= net.size && |acc| == net.size
    ensures |r| == net.size
    ensures forall k :: 0 <= k < net.size ==> r[k] == acc[k] + CountHolding(net, c[i..net.size], k + 1)
    decreases net.size - i
  {
    if i == net.size then
      assert c[i..net.size] == [];
      acc
    else
      var vals := SortedValues(net.vars[c[i]].domain);
      assert VarValid(net.vars[c[i]], net.size);
      assert forall p :: 0 <= p < |vals| ==> vals[p] in net.vars[c[i]].domain;
      var r := HistogramFrom(net, c, i + 1, AddValues(acc, vals));
      assert c[i..net.size][1..] == c[i + 1..net.size];
      r
  }

  /** The count array `n` of `norvigCheck` for constraint `c`: entry `x-1` is the
      number of the first N members whose domain holds `x`. */
  function Histogram(net: Net, c: seq<nat>): (r: seq<nat>)
    requires Valid(net) && Indexes(c, |net.vars|) && |c| >= net.size
    ensures |r| == net.size
    ensures forall x :: 1 <= x <= net.size ==> r[x - 1] == Tally(net, c, x)
  {
    var r := HistogramFrom(net, c, 0, seq(net.size, _ => 0));
    assert c[0..net.size] == c[..net.size];
    r
  }

  /** Log cell `n` on the trail, then assign it the value `x`. */
  function RecordAndAssign(st: State, n: nat, x: int): (r: State)
    requires StateValid(st) && n < |st.net.vars| && 1 <= x <= st.net.size && x in st.net.vars[n].domain
    ensures StateValid(r) && Logged(st, r) && Refines(st.net, r.net)
    ensures r.net.vars[n] == Var({x}, true)
    ensures forall j :: 0 <= j < |st.net.vars| && j != n ==> r.net.vars[j] == st.net.vars[j]
  {
    var pushed := Push(st, n);
    var r := State(Assign(pushed.net, n, x), pushed.trail);
    PushThenSetLogged(st, n, Var({x}, true));
    assert r == State(st.net.(vars := st.net.vars[n := Var({x}, true)]), Push(st, n).trail);
    assert st.net.vars[n].isAssigned ==> st.net.vars[n] == Var({x}, true) by {
      if st.net.vars[n].isAssigned {
        SingletonIs(st.net.vars[n].domain, x);
      }
    }
    assert VarValid(Var({x}, true), st.net.size);
    r
  }

  /** The member loop for value `x` from member `p` on: every member still holding
      `x` is recorded and assigned `x`. */
  function PlaceValue(st: State, c: seq<nat>, x: int, p: nat): (r: State)
    requires StateValid(st) && Indexes(c, |st.net.vars|) && p <= |c| && 1 <= x <= st.net.size
    ensures StateValid(r) && Logged(st, r) && Refines(st.net, r.net)
    ensures forall j :: 0 <= j < |st.net.vars| ==>
              r.net.vars[j] == if j in c[p..] && x in st.net.vars[j].domain then Var({x}, true) else st.net.vars[j]
    decreases |c| - p
  {
    if p == |c| then
      LoggedReflexive(st);
      st
    else
      var n := c[p];
      assert forall j :: j in c[p..] <==> j == n || j in c[p + 1..] by {
        assert c[p..] == [n] + c[p + 1..];
      }
      if x in st.net.vars[n].domain then
        var s1 := RecordAndAssign(st, n, x);
        var r := PlaceValue(s1, c, x, p + 1);
        LoggedTransitive(st, s1, r);
        RefinesTransitive(st.net, s1.net, r.net);
        r
      else
        PlaceValue(st, c, x, p + 1)
  }

  /** One turn of the count-array loop: value `i + 1` is placed when counted once. */
  function PlaceIfSingle(st: State, c: seq<nat>, counts: seq<nat>, i: nat): (r: State)
    requires StateValid(st) && Indexes(c, |st.net.vars|) && |counts| == st.net.size && i < |counts|
    ensures StateValid(r) && Logged(st, r) && Refines(st.net, r.net)
    ensures counts[i] == 1 ==>
              forall j :: 0 <= j < |st.net.vars| ==>
                r.net.vars[j] == if j in c && i + 1 in st.net.vars[j].domain then Var({i + 1}, true) else st.net.vars[j]
    ensures counts[i] != 1 ==> r == st
    ensures forall j :: 0 <= j < |st.net.vars| ==> Narrows(st.net.vars[j], r.net.vars[j])
    ensures forall j :: 0 <= j < |st.net.vars| && j !in c ==> r.net.vars[j] == st.net.vars[j]
  {
    if counts[i] == 1 then
      assert c[0..] == c;
      PlaceValue(st, c, i + 1, 0)
    else
      LoggedReflexive(st);
      st
  }

  /** `b` is `a` assigned alone to a value `y` above `i` that `a` held and that the
      count array saw exactly once, and `y` is the least such value, since the values
      are visited in ascending order. */
  predicate PlacedSingle(a: Var, b: Var, counts: seq<nat>, i: nat)
  {
    exists y :: i < y <= |counts| && counts[y - 1] == 1 && y in a.domain && b == Var({y}, true)
                && forall z :: i < z < y && counts[z - 1] == 1 ==> z !in a.domain
  }

  /** Entries `i..N-1` of the count array: each value counted exactly once is placed. */
  function PlaceSingles(st: State, c: seq<nat>, counts: seq<nat>, i: nat): (r: State)
    requires StateValid(st) && Indexes(c, |st.net.vars|) && |counts| == st.net.size && i <= |counts|
    ensures StateValid(r) && Logged(st, r) && Refines(st.net, r.net)
    ensures forall j :: 0 <= j < |st.net.vars| ==> Narrows(st.net.vars[j], r.net.vars[j])
    ensures forall j :: 0 <= j < |st.net.vars| && j !in c ==> r.net.vars[j] == st.net.vars[j]
    ensures forall y, q :: i < y <= |counts| && counts[y - 1] == 1 && 0 <= q < |c| && y in r.net.vars[c[q]].domain
              ==> r.net.vars[c[q]] == Var({y}, true)
    ensures forall j :: 0 <= j < |st.net.vars| && r.net.vars[j] != st.net.vars[j]
              ==> PlacedSingle(st.net.vars[j], r.net.vars[j], counts, i)
    decreases |counts| - i
  {
    if i == |counts| then
      LoggedReflexive(st);
      st
    else
      var s1 := PlaceIfSingle(st, c, counts, i);
      var r := PlaceSingles(s1, c, counts, i + 1);
      LoggedTransitive(st, s1, r);
      RefinesTransitive(st.net, s1.net, r.net);
      PlaceSinglesKeeps(st, s1, r, c);
      PlaceSinglesStep(st, s1, r, c, counts, i);
      PlaceSinglesChanged(st.net, s1.net, r.net, c, counts, i);
      r
  }

  /** A cell changed by turns `i..` was either placed by this turn, and later turns
      keep it, or left alone by this turn and placed by a later one. */
  lemma PlaceSinglesChanged(st: Net, s1: Net, r: Net, c: seq<nat>, counts: seq<nat>, i: nat)
    requires |s1.vars| == |st.vars| == |r.vars| && i < |counts|
    requires counts[i] == 1 ==>
               forall j :: 0 <= j < |st.vars| ==>
                 s1.vars[j] == if j in c && i + 1 in st.vars[j].domain then Var({i + 1}, true) else st.vars[j]
    requires counts[i] != 1 ==> s1 == st
    requires forall j :: 0 <= j < |st.vars| ==> Narrows(s1.vars[j], r.vars[j])
    requires forall j :: 0 <= j < |st.vars| && r.vars[j] != s1.vars[j]
               ==> PlacedSingle(s1.vars[j], r.vars[j], counts, i + 1)
    requires forall j :: 0 <= j < |st.vars| && j !in c ==> r.vars[j] == st.vars[j]
    ensures forall j :: 0 <= j < |st.vars| && r.vars[j] != st.vars[j]
              ==> PlacedSingle(st.vars[j], r.vars[j], counts, i)
  {
    forall j | 0 <= j < |st.vars| && r.vars[j] != st.vars[j]
      ensures PlacedSingle(st.vars[j], r.vars[j], counts, i)
    {
      if s1.vars[j] != st.vars[j] {
        assert s1.vars[j] == Var({i + 1}, true) && i + 1 in st.vars[j].domain;
        assert r.vars[j].domain <= {i + 1};
      } else {
        var y :| i + 1 < y <= |counts| && counts[y - 1] == 1 && y in s1.vars[j].domain && r.vars[j] == Var({y}, true)
                 && forall z :: i + 1 < z < y && counts[z - 1] == 1 ==> z !in s1.vars[j].domain;
        assert j in c;
        assert counts[i] == 1 ==> i + 1 !in st.vars[j].domain;
        assert PlacedSingle(st.vars[j], r.vars[j], counts, i);
      }
    }
  }

  /** Narrowing composes across one turn of `PlaceSingles`, and cells outside the
      constraint stay as they were. */
  lemma PlaceSinglesKeeps(st: State, s1: State, r: State, c: seq<nat>)
    requires |st.net.vars| == |s1.net.vars| == |r.net.vars|
    requires forall j :: 0 <= j < |st.net.vars| ==> Narrows(st.net.vars[j], s1.net.vars[j])
    requires forall j :: 0 <= j < |st.net.vars| && j !in c ==> s1.net.vars[j] == st.net.vars[j]
    requires forall j :: 0 <= j < |st.net.vars| ==> Narrows(s1.net.vars[j], r.net.vars[j])
    requires forall j :: 0 <= j < |st.net.vars| && j !in c ==> r.net.vars[j] == s1.net.vars[j]
    ensures forall j :: 0 <= j < |st.net.vars| ==> Narrows(st.net.vars[j], r.net.vars[j])
    ensures forall j :: 0 <= j < |st.net.vars| && j !in c ==> r.net.vars[j] == st.net.vars[j]
  {
    forall j | 0 <= j < |st.net.vars| ensures Narrows(st.net.vars[j], r.net.vars[j]) {
      NarrowsTransitive(st.net.vars[j], s1.net.vars[j], r.net.vars[j]);
    }
  }

  /** The value of this turn is placed in every member still holding it, and later
      turns leave such a member alone, so the naked-single guarantee extends to it. */
  lemma PlaceSinglesStep(st: State, s1: State, r: State, c: seq<nat>, counts: seq<nat>, i: nat)
    requires StateValid(st) && Indexes(c, |st.net.vars|) && |counts| == st.net.size && i < |counts|
    requires |s1.net.vars| == |st.net.vars| && Refines(s1.net, r.net)
    requires counts[i] == 1 ==>
               forall j :: 0 <= j < |st.net.vars| ==>
                 s1.net.vars[j] == if j in c && i + 1 in st.net.vars[j].domain then Var({i + 1}, true) else st.net.vars[j]
    requires forall j :: 0 <= j < |st.net.vars| ==> Narrows(s1.net.vars[j], r.net.vars[j])
    requires forall y, q :: i + 1 < y <= |counts| && counts[y - 1] == 1 && 0 <= q < |c| && y in r.net.vars[c[q]].domain
               ==> r.net.vars[c[q]] == Var({y}, true)
    ensures forall y, q :: i < y <= |counts| && counts[y - 1] == 1 && 0 <= q < |c| && y in r.net.vars[c[q]].domain
              ==> r.net.vars[c[q]] == Var({y}, true)
  {
    var y := i + 1;
    if counts[i] == 1 {
      forall q | 0 <= q < |c| && y in r.net.vars[c[q]].domain
        ensures r.net.vars[c[q]] == Var({y}, true)
      {
        var j := c[q];
        assert j in c;
        assert y in s1.net.vars[j].domain;
        assert s1.net.vars[j] == Var({y}, true);
      }
    }
  }

  /** The single pass of `norvigCheck` over constraints `k..`: in each constraint,
      count every value over the first N members, then place each value counted once. */
  function NorvigPass(st: State, k: nat): (r: State)
    requires StateValid(st) && Full(st.net) && k <= |st.net.constraints|
    ensures StateValid(r) && Logged(st, r) && Refines(st.net, r.net)
    ensures forall j :: 0 <= j < |st.net.vars| ==> Narrows(st.net.vars[j], r.net.vars[j])
    decreases |st.net.constraints| - k
  {
    if k == |st.net.constraints| then
      LoggedReflexive(st);
      st
    else
      var c := st.net.constraints[k];
      var s1 := PlaceSingles(st, c, Histogram(st.net, c), 0);
      var r := NorvigPass(s1, k + 1);
      LoggedTransitive(st, s1, r);
      RefinesTransitive(st.net, s1.net, r.net);
      assert forall j :: 0 <= j < |st.net.vars| ==> Narrows(st.net.vars[j], r.net.vars[j]) by {
        forall j | 0 <= j < |st.net.vars| ensures Narrows(st.net.vars[j], r.net.vars[j]) {
          NarrowsTransitive(st.net.vars[j], s1.net.vars[j], r.net.vars[j]);
        }
      }
      r
  }

  /** `norvigCheck` (and its verbatim copy `getTournCC`): forward checking first, and
      its failure is returned as is; otherwise one naked-single pass, and the verdict
      is `assignmentsCheck` on the resulting network. Nothing grows, every change is
      recorded first, and a cell it changes ends assigned one of its own values. */
  function NorvigCheck(st: State, mods: seq<nat>): (r: Outcome)
    requires StateValid(st) && Full(st.net) && ModsValid(st.net, mods)
    ensures StateValid(r.state) && Logged(st, r.state) && Refines(st.net, r.state.net)
    ensures !ForwardChecking(st, mods).ok ==> r == ForwardChecking(st, mods)
    ensures ForwardChecking(st, mods).ok ==>
              (r.ok <==> AllConsistent(r.state.net))
              && forall j :: 0 <= j < |st.net.vars| ==>
                   Narrows(ForwardChecking(st, mods).state.net.vars[j], r.state.net.vars[j])
    ensures r.ok ==> AllConsistent(r.state.net)
  {
    var fc := ForwardChecking(st, mods);
    ShrinksRefines(st.net, fc.state.net);
    if !fc.ok then fc
    else
      var s := NorvigPass(fc.state, 0);
      LoggedTransitive(st, fc.state, s);
      RefinesTransitive(st.net, fc.state.net, s.net);
      Outcome(s, AssignmentsCheck(s.net))
  }

  // ------------------------------------------------------------------
  // checkConsistency
  // ------------------------------------------------------------------

  /** The check each name selects: forward checking, Norvig's check (also under the
      tournament name), and the plain assignments check for any other name. */
  function CheckConsistency(st: State, check: string, mods: seq<nat>): (r: Outcome)
    requires StateValid(st) && ModsValid(st.net, mods)
    requires check == "norvigCheck" || check == "tournCC" ==> Full(st.net)
    ensures StateValid(r.state) && Logged(st, r.state) && Refines(st.net, r.state.net)
    ensures check == "forwardChecking" ==> r == ForwardChecking(st, mods)
    ensures check == "norvigCheck" || check == "tournCC" ==> r == NorvigCheck(st, mods)
    ensures check != "forwardChecking" && check != "norvigCheck" && check != "tournCC" ==>
              r.state == st && (r.ok <==> AllConsistent(st.net))
    ensures (r.ok && forall m :: 0 <= m < |st.net.constraints| && m !in mods ==> Consistent(st.net, st.net.constraints[m]))
            ==> AllConsistent(r.state.net)
  {
    if check == "forwardChecking" then
      var r := ForwardChecking(st, mods);
      ShrinksRefines(st.net, r.state.net);
      ForwardCheckingKeepsConsistency(st, mods);
      r
    else if check == "norvigCheck" || check == "tournCC" then
      NorvigCheck(st, mods)
    else
      LoggedReflexive(st);
      Outcome(st, AssignmentsCheck(st.net))
  }
}

=== FILE: domain.dfy ===
/** Candidate-value sets of single cells and the orderings the solver reads them in.

    A domain is held as a set of integers. The shell keeps each domain as a list that
    starts out ascending and only ever loses elements, so "domain order" is ascending
    order throughout this model. */
module Domain {

  /** `m` is the least element of `s`. */
  predicate IsLeast(m: int, s: set<int>)
  {
    m in s && forall x :: x in s ==> m <= x
  }

  /** Strictly increasing, hence free of duplicates. */
  predicate Ascending(r: seq<int>)
  {
    forall p, q :: 0 <= p < q < |r| ==> r[p] < r[q]
  }

  /** Every element lies in the alphabet 1..n. */
  predicate WithinAlphabet(s: set<int>, n: nat)
  {
    forall x :: x in s ==> 1 <= x <= n
  }

  lemma {:induction false} LeastExists(s: set<int>)
    requires s != {}
    ensures exists m :: IsLeast(m, s)
    decreases |s|
  {
    assert (forall z :: z !in s) ==> s == {};
    var x :| x in s;
    if s != {x} {
      LeastExists(s - {x});
      var y :| IsLeast(y, s - {x});
      assert forall z :: z in s ==> z == x || z in s - {x};
      if x <= y {
        assert IsLeast(x, s);
      } else {
        assert IsLeast(y, s);
      }
    } else {
      assert IsLeast(x, s);
    }
  }

  /** The first element of a non-empty domain in domain order. */
  function Smallest(s: set<int>): (m: int)
    requires s != {}
    ensures IsLeast(m, s)
  {
    LeastExists(s);
    var m :| IsLeast(m, s); m
  }

  /** The domain's values, each once, in ascending order. */
  function SortedValues(s: set<int>): (r: seq<int>)
    ensures |r| == |s|
    ensures forall x :: x in r <==> x in s
    ensures Ascending(r)
    decreases |s|
  {
    if s == {} then []
    else
      var m := Smallest(s);
      [m] + SortedValues(s - {m})
  }

  /** A domain drawn from the alphabet 1..n has at most n values. */
  lemma {:induction false} AlphabetBoundsSize(s: set<int>, n: nat)
    requires WithinAlphabet(s, n)
    ensures |s| <= n
  {
    if n == 0 {
      assert forall x :: x !in s;
      assert s == {};
    } else {
      AlphabetBoundsSize(s - {n}, n - 1);
      assert s <= (s - {n}) + {n};
    }
  }

  /** A one-element domain holding `x` is exactly `{x}`. */
  lemma SingletonIs(s: set<int>, x: int)
    requires |s| == 1 && x in s
    ensures s == {x}
  {
    assert |s - {x}| == 0;
    assert forall z :: z in s ==> z == x || z in s - {x};
  }
}

=== FILE: network.dfy ===
/** The constraint network the search engine reads and edits: variables (cells) with
    their candidate domains and assigned flags, and all-different constraints given as
    lists of variable indices. Two variables are neighbours when some constraint lists
    both. The Variable, Domain, Constraint and ConstraintNetwork classes themselves are
    not part of this model; this module states the behaviour the engine relies on. */
module Network {
  import opened Wrappers
  import opened Domain

  /** One cell: its remaining candidate values and whether it has been assigned. */
  datatype Var = Var(domain: set<int>, isAssigned: bool)

  /** `size` is the alphabet size N (values run 1..N); `vars` is the network's fixed
      iteration order; each constraint lists the indices of its member variables. */
  datatype Net = Net(size: nat, vars: seq<Var>, constraints: seq<seq<nat>>)

  /** Every entry of `c` names one of `count` variables. */
  predicate Indexes(c: seq<nat>, count: nat)
  {
    forall p :: 0 <= p < |c| ==> c[p] < count
  }

  /** Every constraint member is a variable of the network. */
  predicate WellFormed(net: Net)
  {
    forall k :: 0 <= k < |net.constraints| ==> Indexes(net.constraints[k], |net.vars|)
  }

  /** A cell as the shell keeps it: values drawn from 1..n, and an assigned cell holds
      exactly one value. */
  predicate VarValid(v: Var, n: nat)
  {
    WithinAlphabet(v.domain, n) && (v.isAssigned ==> |v.domain| == 1)
  }

  predicate Valid(net: Net)
  {
    && WellFormed(net)
    && forall i :: 0 <= i < |net.vars| ==> VarValid(net.vars[i], net.size)
  }

  /** Every constraint has at least N members, as the naked-single count expects. */
  predicate Full(net: Net)
  {
    forall k :: 0 <= k < |net.constraints| ==> |net.constraints[k]| >= net.size
  }

  /** `getAssignment`: the value an assigned cell holds (its first value in domain
      order); no value for an unassigned cell. */
  function Value(v: Var): (r: Option<int>)
    ensures r.Some? <==> v.isAssigned && v.domain != {}
    ensures r.Some? ==> r.value in v.domain && forall x :: x in v.domain ==> r.value <= x
  {
    if v.isAssigned && v.domain != {} then Some(Smallest(v.domain)) else None
  }

  /** The cell is assigned the value `x`. */
  predicate Holds(v: Var, x: int)
  {
    Value(v) == Some(x)
  }

  /** `i` and `j` are distinct and share a constraint. */
  predicate Adjacent(net: Net, i: nat, j: nat)
  {
    i != j && exists k :: 0 <= k < |net.constraints| && i in net.constraints[k] && j in net.constraints[k]
  }

  function NeighborsFrom(net: Net, i: nat, j: nat): (r: seq<nat>)
    requires j <= |net.vars|
    ensures forall p :: 0 <= p < |r| ==> j <= r[p] < |net.vars| && Adjacent(net, i, r[p])
    ensures forall n :: j <= n < |net.vars| && Adjacent(net, i, n) ==> n in r
    ensures forall p, q :: 0 <= p < q < |r| ==> r[p] < r[q]
    decreases |net.vars| - j
  {
    if j == |net.vars| then []
    else if Adjacent(net, i, j) then [j] + NeighborsFrom(net, i, j + 1)
    else NeighborsFrom(net, i, j + 1)
  }

  /** `getNeighborsOfVariable`: every variable sharing a constraint with `i`, excluding
      `i`, each once, listed in index order. */
  function Neighbors(net: Net, i: nat): (r: seq<nat>)
    ensures Indexes(r, |net.vars|)
    ensures forall n: nat :: n in r <==> n < |net.vars| && Adjacent(net, i, n)
    ensures forall p, q :: 0 <= p < q < |r| ==> r[p] < r[q]
  {
    NeighborsFrom(net, i, 0)
  }

  /** How many of the listed variables are unassigned. */
  function CountUnassigned(net: Net, ns: seq<nat>): nat
    requires Indexes(ns, |net.vars|)
  {
    if ns == [] then 0
    else (if net.vars[ns[0]].isAssigned then 0 else 1) + CountUnassigned(net, ns[1..])
  }

  /** The degree count: unassigned neighbours of `i`. */
  function UnassignedNeighbors(net: Net, i: nat): nat
  {
    CountUnassigned(net, Neighbors(net, i))
  }

  /** How many of the listed variables still have `x` in their domain. */
  function CountHolding(net: Net, ns: seq<nat>, x: int): nat
    requires Indexes(ns, |net.vars|)
  {
    if ns == [] then 0
    else (if x in net.vars[ns[0]].domain then 1 else 0) + CountHolding(net, ns[1..], x)
  }

  /** `Constraint.isConsistent`: no two distinct assigned members hold equal values. */
  predicate Consistent(net: Net, c: seq<nat>)
    requires Indexes(c, |net.vars|)
  {
    forall p, q ::
      0 <= p < |c| && 0 <= q < |c| && c[p] != c[q]
      && net.vars[c[p]].isAssigned && net.vars[c[q]].isAssigned
      ==> Value(net.vars[c[p]]) != Value(net.vars[c[q]])
  }

  predicate AllConsistent(net: Net)
    requires WellFormed(net)
  {
    forall k :: 0 <= k < |net.constraints| ==> Consistent(net, net.constraints[k])
  }

  /** Every constraint that lists `v` is consistent. */
  predicate ConstraintsHold(net: Net, v: nat)
    requires WellFormed(net)
  {
    forall k :: 0 <= k < |net.constraints| && v in net.constraints[k] ==> Consistent(net, net.constraints[k])
  }

  function ConstraintsFrom(net: Net, v: nat, k: nat): (r: seq<nat>)
    requires k <= |net.constraints|
    ensures forall p :: 0 <= p < |r| ==> k <= r[p] < |net.constraints| && v in net.constraints[r[p]]
    ensures forall m :: k <= m < |net.constraints| && v in net.constraints[m] ==> m in r
    decreases |net.constraints| - k
  {
    if k == |net.constraints| then []
    else if v in net.constraints[k] then [k] + ConstraintsFrom(net, v, k + 1)
    else ConstraintsFrom(net, v, k + 1)
  }

  /** `getConstraintsContainingVariable`: indices of the constraints that list `v`. */
  function ConstraintsOf(net: Net, v: nat): (r: seq<nat>)
    ensures forall m: nat :: m in r <==> m < |net.constraints| && v in net.constraints[m]
  {
    ConstraintsFrom(net, v, 0)
  }

  /** `assignValue`: the domain collapses to `{x}` and the cell becomes assigned. */
  function Assign(net: Net, i: nat, x: int): (r: Net)
    requires i < |net.vars|
    ensures r.size == net.size && r.constraints == net.constraints && |r.vars| == |net.vars|
    ensures Holds(r.vars[i], x) && r.vars[i].domain == {x}
    ensures x in net.vars[i].domain ==> Narrows(net.vars[i], r.vars[i])
    ensures forall j :: 0 <= j < |net.vars| && j != i ==> r.vars[j] == net.vars[j]
  {
    net.(vars := net.vars[i := Var({x}, true)])
  }

  /** `removeValueFromDomain`: the cell loses `x` and nothing else; its flag stays. */
  function Remove(net: Net, i: nat, x: int): (r: Net)
    requires i < |net.vars|
    ensures r.size == net.size && r.constraints == net.constraints && |r.vars| == |net.vars|
    ensures forall y :: y in r.vars[i].domain <==> y in net.vars[i].domain && y != x
    ensures r.vars[i].isAssigned == net.vars[i].isAssigned
    ensures forall j :: 0 <= j < |net.vars| && j != i ==> r.vars[j] == net.vars[j]
    ensures !net.vars[i].isAssigned ==> Shrinks(net, r)
  {
    net.(vars := net.vars[i := Var(net.vars[i].domain - {x}, net.vars[i].isAssigned)])
  }

  /** `b` differs from `a` only in the domains of unassigned cells. */
  predicate SameAssignments(a: Net, b: Net)
  {
    && a.size == b.size && a.constraints == b.constraints && |a.vars| == |b.vars|
    && forall j :: 0 <= j < |a.vars| ==>
         a.vars[j].isAssigned == b.vars[j].isAssigned && (a.vars[j].isAssigned ==> a.vars[j] == b.vars[j])
  }

  /** `b` is `a` with some unassigned domains narrowed; nothing grows. */
  predicate Shrinks(a: Net, b: Net)
  {
    SameAssignments(a, b) && forall j :: 0 <= j < |a.vars| ==> b.vars[j].domain <= a.vars[j].domain
  }

  /** Consistency reads only the assigned cells, so narrowing unassigned domains
      cannot change it. */
  lemma SameAssignmentsKeepConsistency(a: Net, b: Net, c: seq<nat>)
    requires SameAssignments(a, b) && Indexes(c, |a.vars|)
    ensures Consistent(a, c) <==> Consistent(b, c)
  {
  }

  /** Consistency of a constraint reads only that constraint's members. */
  lemma MembersDecideConsistency(a: Net, b: Net, c: seq<nat>)
    requires |a.vars| == |b.vars| && Indexes(c, |a.vars|)
    requires forall p :: 0 <= p < |c| ==> a.vars[c[p]] == b.vars[c[p]]
    ensures Consistent(a, c) <==> Consistent(b, c)
  {
  }

  /** The number of unassigned cells: the search's termination measure. */
  function Unassigned(vs: seq<Var>): nat
  {
    if vs == [] then 0 else (if vs[0].isAssigned then 0 else 1) + Unassigned(vs[1..])
  }

  lemma {:induction false} UnassignedMonotone(a: seq<Var>, b: seq<Var>)
    requires |a| == |b|
    requires forall j :: 0 <= j < |a| && a[j].isAssigned ==> b[j].isAssigned
    ensures Unassigned(b) <= Unassigned(a)
    ensures (exists j :: 0 <= j < |a| && !a[j].isAssigned && b[j].isAssigned) ==> Unassigned(b) < Unassigned(a)
  {
    if a != [] {
      UnassignedMonotone(a[1..], b[1..]);
      if exists j :: 0 <= j < |a| && !a[j].isAssigned && b[j].isAssigned {
        var j :| 0 <= j < |a| && !a[j].isAssigned && b[j].isAssigned;
        if j > 0 {
          assert !a[1..][j - 1].isAssigned && b[1..][j - 1].isAssigned;
        }
      }
    }
  }

  /** `b` is `a` after the search narrowed it: same shape, no domain grew, and every
      cell assigned in `a` is untouched in `b`. */
  predicate Refines(a: Net, b: Net)
  {
    && a.size == b.size && a.constraints == b.constraints && |a.vars| == |b.vars|
    && forall j :: 0 <= j < |a.vars| ==>
         b.vars[j].domain <= a.vars[j].domain && (a.vars[j].isAssigned ==> b.vars[j] == a.vars[j])
  }

  lemma ShrinksRefines(a: Net, b: Net)
    requires Shrinks(a, b)
    ensures Refines(a, b)
  {
  }

  lemma ShrinksTransitive(a: Net, b: Net, c: Net)
    requires Shrinks(a, b) && Shrinks(b, c)
    ensures Shrinks(a, c)
  {
  }

  lemma RefinesTransitive(a: Net, b: Net, c: Net)
    requires Refines(a, b) && Refines(b, c)
    ensures Refines(a, c)
  {
  }

  /** `b` is `a`, or `a` collapsed to one of its own values and marked assigned. */
  predicate Narrows(a: Var, b: Var)
  {
    b == a || (b.isAssigned && |b.domain| == 1 && b.domain <= a.domain)
  }

  lemma NarrowsTransitive(a: Var, b: Var, c: Var)
    requires Narrows(a, b) && Narrows(b, c)
    ensures Narrows(a, c)
  {
  }

  /** No index is listed twice. */
  predicate Distinct(ns: seq<nat>)
  {
    forall p, q :: 0 <= p < q < |ns| ==> ns[p] != ns[q]
  }

  lemma DistinctTail(ns: seq<nat>)
    requires Distinct(ns) && ns != []
    ensures Distinct(ns[1..]) && ns[0] !in ns[1..]
    ensures forall n :: n in ns <==> n == ns[0] || n in ns[1..]
  {
    assert ns == [ns[0]] + ns[1..];
    forall q | 0 <= q < |ns[1..]| ensures ns[1..][q] != ns[0] {
      assert ns[1..][q] == ns[q + 1];
    }
  }

  /** The holder count is the size of the set of listed cells holding `x`. */
  lemma {:induction false} CountHoldingIsCard(net: Net, ns: seq<nat>, x: int)
    requires Indexes(ns, |net.vars|) && Distinct(ns)
    ensures CountHolding(net, ns, x) == |set n | n in ns && x in net.vars[n].domain|
  {
    if ns != [] {
      DistinctTail(ns);
      assert Indexes(ns[1..], |net.vars|);
      CountHoldingIsCard(net, ns[1..], x);
      HoldingSetStep(net, ns, x);
    }
  }

  lemma HoldingSetStep(net: Net, ns: seq<nat>, x: int)
    requires Indexes(ns, |net.vars|) && ns != [] && ns[0] !in ns[1..]
    requires forall n :: n in ns <==> n == ns[0] || n in ns[1..]
    ensures var t := set n | n in ns[1..] && x in net.vars[n].domain;
            ns[0] !in t
            && (set n | n in ns && x in net.vars[n].domain)
               == if x in net.vars[ns[0]].domain then t + {ns[0]} else t
  {
  }

  /** The unassigned count is the size of the set of listed unassigned cells. */
  lemma {:induction false} CountUnassignedIsCard(net: Net, ns: seq<nat>)
    requires Indexes(ns, |net.vars|) && Distinct(ns)
    ensures CountUnassigned(net, ns) == |set n | n in ns && !net.vars[n].isAssigned|
  {
    if ns != [] {
      DistinctTail(ns);
      assert Indexes(ns[1..], |net.vars|);
      CountUnassignedIsCard(net, ns[1..]);
      UnassignedSetStep(net, ns);
    }
  }

  lemma UnassignedSetStep(net: Net, ns: seq<nat>)
    requires Indexes(ns, |net.vars|) && ns != [] && ns[0] !in ns[1..]
    requires forall n :: n in ns <==> n == ns[0] || n in ns[1..]
    ensures var t := set n | n in ns[1..] && !net.vars[n].isAssigned;
            ns[0] !in t
            && (set n | n in ns && !net.vars[n].isAssigned)
               == if !net.vars[ns[0]].isAssigned then t + {ns[0]} else t
  {
  }

  /** The degree count is the number of unassigned neighbours. */
  lemma UnassignedNeighborsIsCard(net: Net, i: nat)
    ensures UnassignedNeighbors(net, i)
            == |set n: nat | n < |net.vars| && Adjacent(net, i, n) && !net.vars[n].isAssigned|
  {
    var ns := Neighbors(net, i);
    CountUnassignedIsCard(net, ns);
    assert (set n | n in ns && !net.vars[n].isAssigned)
        == (set n: nat | n < |net.vars| && Adjacent(net, i, n) && !net.vars[n].isAssigned);
  }
}

=== FILE: orderings.dfy ===
/** The value orderings: in which order the search tries the values of the chosen
    cell. */
module Orderings {
  import opened Domain
  import opened Network

  /** How many neighbours of `v` still hold `x`: the values assigning `x` would knock
      out of their domains. */
  function Support(net: Net, v: nat, x: int): nat
  {
    CountHolding(net, Neighbors(net, v), x)
  }

  /** The support is the number of neighbours whose domain holds `x`. */
  lemma SupportIsCard(net: Net, v: nat, x: int)
    ensures Support(net, v, x)
            == |set n: nat | n < |net.vars| && Adjacent(net, v, n) && x in net.vars[n].domain|
  {
    var ns := Neighbors(net, v);
    CountHoldingIsCard(net, ns, x);
    assert (set n | n in ns && x in net.vars[n].domain)
        == (set n: nat | n < |net.vars| && Adjacent(net, v, n) && x in net.vars[n].domain);
  }

  /** `a` goes before `b`: it has less support, or as much and is smaller. A stable sort
      by support of an ascending list puts equal supports in ascending order, so this
      is the order it produces. */
  predicate Before(net: Net, v: nat, a: int, b: int)
  {
    Support(net, v, a) < Support(net, v, b) || (Support(net, v, a) == Support(net, v, b) && a < b)
  }

  predicate Ranked(net: Net, v: nat, r: seq<int>)
  {
    forall p, q :: 0 <= p < q < |r| ==> Before(net, v, r[p], r[q])
  }

  function Insert(net: Net, v: nat, x: int, s: seq<int>): (r: seq<int>)
    requires Ranked(net, v, s) && x !in s
    ensures Ranked(net, v, r) && |r| == |s| + 1
    ensures forall y :: y in r <==> y == x || y in s
  {
    if s == [] then [x]
    else if Before(net, v, x, s[0]) then
      assert forall q :: 0 < q < |s| ==> Before(net, v, s[0], s[q]);
      [x] + s
    else
      var rest := Insert(net, v, x, s[1..]);
      assert forall y :: y in s <==> y == s[0] || y in s[1..] by {
        assert s == [s[0]] + s[1..];
      }
      assert forall y :: y in s[1..] ==> Before(net, v, s[0], y) by {
        forall y | y in s[1..] ensures Before(net, v, s[0], y) {
          var q :| 0 <= q < |s[1..]| && s[1..][q] == y;
          assert s[q + 1] == y;
        }
      }
      assert forall q :: 0 <= q < |rest| ==> rest[q] in rest;
      [s[0]] + rest
  }

  /** Insertion sort into the support order. */
  function SortBySupport(net: Net, v: nat, xs: seq<int>): (r: seq<int>)
    requires Ascending(xs)
    ensures Ranked(net, v, r) && |r| == |xs|
    ensures forall y :: y in r <==> y in xs
  {
    if xs == [] then []
    else
      assert forall y :: y in xs <==> y == xs[0] || y in xs[1..] by {
        assert xs == [xs[0]] + xs[1..];
      }
      assert xs[0] !in xs[1..];
      Insert(net, v, xs[0], SortBySupport(net, v, xs[1..]))
  }

  /** Two lists of the same values, both in support order, are the same list: the
      order is a strict total order, so it leaves no freedom. */
  lemma {:induction false} RankedUnique(net: Net, v: nat, a: seq<int>, b: seq<int>)
    requires Ranked(net, v, a) && Ranked(net, v, b)
    requires forall y :: y in a <==> y in b
    ensures a == b
  {
    assert a != [] ==> a[0] in a;
    assert b != [] ==> b[0] in b;
    if a != [] && b != [] {
      assert a[0] in b && b[0] in a;
      assert a[0] == b[0];
      forall y ensures y in a[1..] <==> y in b[1..] {
        RankedTail(net, v, a, y);
        RankedTail(net, v, b, y);
      }
      RankedUnique(net, v, a[1..], b[1..]);
      assert a == [a[0]] + a[1..] && b == [b[0]] + b[1..];
    }
  }

  lemma RankedTail(net: Net, v: nat, a: seq<int>, y: int)
    requires Ranked(net, v, a) && a != []
    ensures Ranked(net, v, a[1..])
    ensures y in a[1..] <==> y in a && y != a[0]
  {
    assert a == [a[0]] + a[1..];
    if y in a[1..] {
      var q :| 0 <= q < |a[1..]| && a[1..][q] == y;
      assert Before(net, v, a[0], a[q + 1]);
    }
  }

  // ------------------------------------------------------------------
  // getValuesInOrder, getTournVal, getValuesLCVOrder, getNextValues
  // ------------------------------------------------------------------

  /** `getValuesInOrder`: the domain in ascending order. */
  function ValuesInOrder(net: Net, v: nat): (r: seq<int>)
    requires v < |net.vars|
    ensures Ascending(r) && |r| == |net.vars[v].domain|
    ensures forall x :: x in r <==> x in net.vars[v].domain
  {
    SortedValues(net.vars[v].domain)
  }

  /** `getTournVal`: the domain, least supported value first, ties in ascending order. */
  function TournVal(net: Net, v: nat): (r: seq<int>)
    requires v < |net.vars|
    ensures Ranked(net, v, r) && |r| == |net.vars[v].domain|
    ensures forall x :: x in r <==> x in net.vars[v].domain
  {
    SortBySupport(net, v, ValuesInOrder(net, v))
  }

  /** `getValuesLCVOrder`: the support order of `getTournVal`, except that the table
      of supports is filled inside the neighbour loop, so a cell with no neighbours
      gets no values at all. */
  function ValuesLcvOrder(net: Net, v: nat): (r: seq<int>)
    requires v < |net.vars|
    ensures Neighbors(net, v) == [] ==> r == []
    ensures Neighbors(net, v) != [] ==>
              Ranked(net, v, r) && |r| == |net.vars[v].domain| && forall x :: x in r <==> x in net.vars[v].domain
  {
    if Neighbors(net, v) == [] then [] else TournVal(net, v)
  }

  /** The ordering each name chooses; any other name gets ascending order. Every
      value offered is one of the cell's, none twice, and only the least-constraining
      ordering of a cell without neighbours offers fewer than all. */
  function GetNextValues(net: Net, v: nat, valOrder: string): (r: seq<int>)
    requires v < |net.vars|
    ensures forall x :: x in r ==> x in net.vars[v].domain
    ensures forall p, q :: 0 <= p < q < |r| ==> r[p] != r[q]
    ensures valOrder != "LeastConstrainingValue" || Neighbors(net, v) != [] ==>
              |r| == |net.vars[v].domain| && forall x :: x in net.vars[v].domain ==> x in r
    ensures valOrder == "LeastConstrainingValue" || valOrder == "tournVal" ==>
              Ranked(net, v, r)
    ensures valOrder != "LeastConstrainingValue" && valOrder != "tournVal" ==> Ascending(r)
    ensures valOrder == "LeastConstrainingValue" ==> r == ValuesLcvOrder(net, v)
    ensures valOrder == "tournVal" ==> r == TournVal(net, v)
    ensures valOrder != "LeastConstrainingValue" && valOrder != "tournVal" ==> r == ValuesInOrder(net, v)
  {
    if valOrder == "LeastConstrainingValue" then ValuesLcvOrder(net, v)
    else if valOrder == "tournVal" then TournVal(net, v)
    else ValuesInOrder(net, v)
  }
}

=== FILE: scenarios.dfy ===
/** Small networks on which the heuristics' documented behaviour, including their
    quirks, can be seen concretely. */
module Scenarios {
  import opened Wrappers
  import opened Domain
  import opened Network
  import opened Trail
  import opened Selectors
  import opened Orderings
  import opened Solver

  /** Three cells in one constraint: cell 0 may take 1, 2 or 3, cell 1 may take 1 or 3,
      cell 2 only 1. */
  function Row(): Net
  {
    Net(3, [Var({1, 2, 3}, false), Var({1, 3}, false), Var({1}, false)], [[0, 1, 2]])
  }

  lemma RowNeighbors()
    ensures Neighbors(Row(), 0) == [1, 2]
  {
    var net := Row();
    var r := Neighbors(net, 0);
    assert net.constraints[0] == [0, 1, 2];
    assert Adjacent(net, 0, 1) && Adjacent(net, 0, 2);
    assert 1 in r && 2 in r;
    assert forall p :: 0 <= p < |r| ==> r[p] == 1 || r[p] == 2 by {
      assert forall p :: 0 <= p < |r| ==> r[p] in r;
    }
  }

  /** On the row, value 2 knocks out nothing, 3 knocks out one value and 1 knocks out
      two, so the least-constraining order is 2, 3, 1. */
  lemma LcvWorkedExample()
    ensures ValuesLcvOrder(Row(), 0) == [2, 3, 1]
  {
    var net := Row();
    RowNeighbors();
    assert Support(net, 0, 1) == 2;
    assert Support(net, 0, 2) == 0;
    assert Support(net, 0, 3) == 1;
    assert Ranked(net, 0, [2, 3, 1]);
    RankedUnique(net, 0, ValuesLcvOrder(net, 0), [2, 3, 1]);
  }

  /** A single cell alone in its constraint: it shares none with any other cell. */
  function Lone(): Net
  {
    Net(1, [Var({1}, false)], [[0]])
  }

  /** A cell without neighbours gets no values from the least-constraining ordering,
      so the search gives up on a network that `1` would solve. */
  lemma LcvLoneCellExhausts()
    ensures ValuesLcvOrder(Lone(), 0) == []
    ensures Solve(State(Lone(), []), Config("LeastConstrainingValue", "", "")).Exhausted?
  {
    assert Neighbors(Lone(), 0) == [];
    assert FirstUnassigned(Lone()) == Some(0);
  }

  /** The degree selector reports none for the lone cell although it is unassigned, so
      the search reports a solution with an open cell. */
  lemma DegreeStopsEarly()
    ensures Degree(Lone()) == None
    ensures Solve(State(Lone(), []), Config("", "Degree", "")) == Found(State(Lone(), []))
  {
    assert Neighbors(Lone(), 0) == [];
  }

  /** Cell 0 (three values) shares a constraint with cell 1 and one with cell 2 (two
      values each). */
  function Star(): Net
  {
    Net(3, [Var({1, 2, 3}, false), Var({1, 2}, false), Var({1, 2}, false)], [[0, 1], [0, 2]])
  }

  lemma CentreNeighbors()
    ensures Neighbors(Star(), 0) == [1, 2]
  {
    var net := Star();
    assert Adjacent(net, 0, 1) by { assert 0 in net.constraints[0] && 1 in net.constraints[0]; }
    assert Adjacent(net, 0, 2) by { assert 0 in net.constraints[1] && 2 in net.constraints[1]; }
    assert NeighborsFrom(net, 0, 3) == [];
    assert NeighborsFrom(net, 0, 2) == [2];
    assert NeighborsFrom(net, 0, 1) == [1, 2];
  }

  lemma LeafNeighbors(i: nat)
    requires i == 1 || i == 2
    ensures Neighbors(Star(), i) == [0]
  {
    var net := Star();
    var c := net.constraints;
    assert c == [[0, 1], [0, 2]];
    assert Adjacent(net, i, 0) by { assert i in c[i - 1] && 0 in c[i - 1]; }
    assert !Adjacent(net, i, 3 - i) by {
      assert forall k :: 0 <= k < |c| ==> !(i in c[k] && 3 - i in c[k]);
    }
    assert NeighborsFrom(net, i, 3) == [];
    assert NeighborsFrom(net, i, 2) == [];
    assert NeighborsFrom(net, i, 1) == [];
    assert NeighborsFrom(net, i, 0) == [0];
  }

  /** Cell 0 has two unassigned neighbours; each leaf has one. */
  lemma StarDegrees()
    ensures UnassignedNeighbors(Star(), 0) == 2
    ensures UnassignedNeighbors(Star(), 1) == 1 && UnassignedNeighbors(Star(), 2) == 1
  {
    CentreDegree();
    LeafDegree(1);
    LeafDegree(2);
  }

  lemma CentreDegree()
    ensures UnassignedNeighbors(Star(), 0) == 2
  {
    var net := Star();
    CentreNeighbors();
    assert [1, 2][1..] == [2] && [2][1..] == [];
    assert CountUnassigned(net, [2]) == 1;
  }

  lemma LeafDegree(i: nat)
    requires i == 1 || i == 2
    ensures UnassignedNeighbors(Star(), i) == 1
  {
    LeafNeighbors(i);
    assert [0][1..] == [];
  }

  /** Cell 0 enters the tie list before the smaller domains turn up and is never
      removed; having the most unassigned neighbours, it is chosen although its domain
      is not the smallest. */
  lemma TieBreakKeepsStaleCandidate()
    ensures TieBreak(Star()) == Ok(Some(0))
    ensures |Star().vars[0].domain| > |Star().vars[1].domain|
  {
    CentreIsCandidate();
    CentreLeadsDegrees();
    TieBreakPicksStrictMax(Star(), 0);
  }

  /** Cell 0 is first and open, so it enters the tie list. */
  lemma CentreIsCandidate()
    ensures Candidate(Star().vars, 0)
  {
    var d := Star().vars[0].domain;
    assert d == {1, 2, 3};
    assert |d| == 3;
  }

  /** Every candidate other than cell 0 has fewer unassigned neighbours. */
  lemma CentreLeadsDegrees()
    ensures forall k :: 0 <= k < |Star().vars| && Candidate(Star().vars, k) && k != 0 ==>
              UnassignedNeighbors(Star(), k) < UnassignedNeighbors(Star(), 0)
  {
    var net := Star();
    StarDegrees();
    forall k | 0 <= k < |net.vars| && Candidate(net.vars, k) && k != 0
      ensures UnassignedNeighbors(net, k) < UnassignedNeighbors(net, 0)
    {
      assert k == 1 || k == 2;
    }
  }

  /** Two open cells, each alone in its constraint: both are tie candidates, neither has
      an unassigned neighbour, and the selector raises. */
  function Pair(): Net
  {
    Net(1, [Var({1}, false), Var({1}, false)], [[0], [1]])
  }

  lemma PairDegrees()
    ensures UnassignedNeighbors(Pair(), 0) == 0 && UnassignedNeighbors(Pair(), 1) == 0
  {
    assert Neighbors(Pair(), 0) == [] && Neighbors(Pair(), 1) == [];
  }

  lemma TieBreakCrashes()
    ensures TieBreak(Pair()).Err?
  {
    assert Candidate(Pair().vars, 0) && Candidate(Pair().vars, 1);
    PairDegrees();
  }

  lemma SearchCrashes()
    ensures Solve(State(Pair(), []), Config("", "MRVwithTieBreaker", "")).Crashed?
  {
    TieBreakCrashes();
  }
}

=== FILE: selectors.dfy ===
/** The variable selectors: which unassigned cell the search branches on next. */
module Selectors {
  import opened Wrappers
  import opened Domain
  import opened Network

  predicate AllAssigned(net: Net)
  {
    forall j :: 0 <= j < |net.vars| ==> net.vars[j].isAssigned
  }

  predicate Increasing(ts: seq<nat>)
  {
    forall p, q :: 0 <= p < q < |ts| ==> ts[p] < ts[q]
  }

  // ------------------------------------------------------------------
  // getfirstUnassignedVariable
  // ------------------------------------------------------------------

  function FirstUnassignedFrom(net: Net, j: nat): (r: Option<nat>)
    requires j <= |net.vars|
    ensures r.None? <==> forall k :: j <= k < |net.vars| ==> net.vars[k].isAssigned
    ensures r.Some? ==> j <= r.value < |net.vars| && !net.vars[r.value].isAssigned
                        && forall k :: j <= k < r.value ==> net.vars[k].isAssigned
    decreases |net.vars| - j
  {
    if j == |net.vars| then None
    else if !net.vars[j].isAssigned then Some(j)
    else FirstUnassignedFrom(net, j + 1)
  }

  /** The first unassigned cell in network order; none exactly when all are assigned. */
  function FirstUnassigned(net: Net): (r: Option<nat>)
    ensures r.None? <==> AllAssigned(net)
    ensures r.Some? ==> r.value < |net.vars| && !net.vars[r.value].isAssigned
                        && forall k :: 0 <= k < r.value ==> net.vars[k].isAssigned
  {
    FirstUnassignedFrom(net, 0)
  }

  // ------------------------------------------------------------------
  // getMRV
  // ------------------------------------------------------------------

  /** `v` is an unassigned cell whose domain is as small as any unassigned cell's, and
      strictly smaller than that of every unassigned cell before it. */
  predicate MinRemaining(net: Net, v: nat)
  {
    && v < |net.vars| && !net.vars[v].isAssigned
    && forall k :: 0 <= k < |net.vars| && !net.vars[k].isAssigned ==>
         |net.vars[v].domain| <= |net.vars[k].domain|
         && (k < v ==> |net.vars[v].domain| < |net.vars[k].domain|)
  }

  /** The scan equivalent of the stable sort by domain size: `best` is replaced only by
      a strictly smaller domain, so the earliest of equal sizes stays. */
  function MrvFrom(net: Net, j: nat, best: Option<nat>): (r: Option<nat>)
    requires j <= |net.vars|
    requires best.None? ==> forall k :: 0 <= k < j ==> net.vars[k].isAssigned
    requires best.Some? ==>
               && best.value < j && !net.vars[best.value].isAssigned
               && forall k :: 0 <= k < j && !net.vars[k].isAssigned ==>
                    |net.vars[best.value].domain| <= |net.vars[k].domain|
                    && (k < best.value ==> |net.vars[best.value].domain| < |net.vars[k].domain|)
    ensures r.None? <==> AllAssigned(net)
    ensures r.Some? ==> MinRemaining(net, r.value)
    decreases |net.vars| - j
  {
    if j == |net.vars| then best
    else if net.vars[j].isAssigned then MrvFrom(net, j + 1, best)
    else if best.None? || |net.vars[j].domain| < |net.vars[best.value].domain| then MrvFrom(net, j + 1, Some(j))
    else MrvFrom(net, j + 1, best)
  }

  /** `getMRV`: the first unassigned cell of smallest domain; none exactly when all
      cells are assigned. No other cell meets that description. */
  function Mrv(net: Net): (r: Option<nat>)
    ensures r.None? <==> AllAssigned(net)
    ensures r.Some? ==> MinRemaining(net, r.value) && forall k :: MinRemaining(net, k) ==> k == r.value
  {
    MrvFrom(net, 0, None)
  }

  // ------------------------------------------------------------------
  // getDegree
  // ------------------------------------------------------------------

  /** `ts` with its unassigned-neighbour counts: `v` comes first among the entries of
      largest positive count. */
  predicate MostAmong(net: Net, ts: seq<nat>, v: nat)
  {
    && v in ts && UnassignedNeighbors(net, v) >= 1
    && forall q :: 0 <= q < |ts| ==>
         UnassignedNeighbors(net, ts[q]) <= UnassignedNeighbors(net, v)
         && (ts[q] < v ==> UnassignedNeighbors(net, ts[q]) < UnassignedNeighbors(net, v))
  }

  /** A running maximum over the counts `ds` that starts at 0 and is replaced only by
      a strictly larger count; the result is a position. */
  function FirstMaxFrom(ds: seq<nat>, p: nat, top: nat, best: Option<nat>): (r: Option<nat>)
    requires p <= |ds|
    requires best.None? ==> top == 0 && forall q :: 0 <= q < p ==> ds[q] == 0
    requires best.Some? ==>
               && best.value < p && top == ds[best.value] && top >= 1
               && forall q :: 0 <= q < p ==> ds[q] <= top && (q < best.value ==> ds[q] < top)
    ensures r.None? <==> forall q :: 0 <= q < |ds| ==> ds[q] == 0
    ensures r.Some? ==>
              && r.value < |ds| && ds[r.value] >= 1
              && forall q :: 0 <= q < |ds| ==> ds[q] <= ds[r.value] && (q < r.value ==> ds[q] < ds[r.value])
    decreases |ds| - p
  {
    if p == |ds| then best
    else if ds[p] > top then FirstMaxFrom(ds, p + 1, ds[p], Some(p))
    else FirstMaxFrom(ds, p + 1, top, best)
  }

  /** The first of the listed cells with the most unassigned neighbours, if any has
      at least one. */
  function MostNeighbors(net: Net, ts: seq<nat>): (r: Option<nat>)
    requires Increasing(ts)
    ensures r.None? <==> forall q :: 0 <= q < |ts| ==> UnassignedNeighbors(net, ts[q]) == 0
    ensures r.Some? ==> MostAmong(net, ts, r.value)
  {
    var ds := seq(|ts|, q requires 0 <= q < |ts| => UnassignedNeighbors(net, ts[q]));
    assert forall q :: 0 <= q < |ts| ==> ds[q] == UnassignedNeighbors(net, ts[q]);
    match FirstMaxFrom(ds, 0, 0, None)
    case None => None
    case Some(p) =>
      assert ts[p] in ts;
      assert forall q :: 0 <= q < |ts| && ts[q] < ts[p] ==> q < p;
      Some(ts[p])
  }

  function OpenFrom(net: Net, j: nat): (r: seq<nat>)
    requires j <= |net.vars|
    ensures Increasing(r)
    ensures forall v: nat :: v in r <==> j <= v < |net.vars| && !net.vars[v].isAssigned
    decreases |net.vars| - j
  {
    if j == |net.vars| then []
    else if net.vars[j].isAssigned then OpenFrom(net, j + 1)
    else
      var rest := OpenFrom(net, j + 1);
      assert forall q :: 0 <= q < |rest| ==> rest[q] in rest;
      [j] + rest
  }

  /** The unassigned cells in network order. */
  function Open(net: Net): (r: seq<nat>)
    ensures Increasing(r)
    ensures forall v: nat :: v in r <==> v < |net.vars| && !net.vars[v].isAssigned
  {
    OpenFrom(net, 0)
  }

  /** `getDegree`: the first unassigned cell with the most unassigned neighbours. It
      gives none not only when every cell is assigned but whenever no unassigned cell
      has an unassigned neighbour. */
  function Degree(net: Net): (r: Option<nat>)
    ensures r.None? <==> forall k :: 0 <= k < |net.vars| && !net.vars[k].isAssigned ==> UnassignedNeighbors(net, k) == 0
    ensures r.Some? ==> r.value < |net.vars| && !net.vars[r.value].isAssigned && MostAmong(net, Open(net), r.value)
  {
    var ts := Open(net);
    var r := MostNeighbors(net, ts);
    assert forall k :: 0 <= k < |net.vars| && !net.vars[k].isAssigned ==> k in ts;
    r
  }

  // ------------------------------------------------------------------
  // MRVwithTieBreaker (and its verbatim copy getTournVar)
  // ------------------------------------------------------------------

  /** The starting value of the running minimum. */
  const Sentinel := 1000000

  /** `v` enters the tie list: it is unassigned and its domain is no larger than the
      sentinel and than every unassigned cell before it. Cells added before a smaller
      domain turns up are never removed. */
  predicate Candidate(vs: seq<Var>, v: nat)
  {
    && v < |vs| && !vs[v].isAssigned && |vs[v].domain| <= Sentinel
    && forall k :: 0 <= k < v && !vs[k].isAssigned ==> |vs[v].domain| <= |vs[k].domain|
  }

  function TiesFrom(vs: seq<Var>, j: nat, mini: nat): (r: seq<nat>)
    requires j <= |vs| && mini <= Sentinel
    requires forall k :: 0 <= k < j && !vs[k].isAssigned ==> mini <= |vs[k].domain|
    requires mini == Sentinel || exists k :: 0 <= k < j && !vs[k].isAssigned && |vs[k].domain| == mini
    ensures Increasing(r)
    ensures forall v: nat :: v in r <==> j <= v && Candidate(vs, v)
    decreases |vs| - j
  {
    if j == |vs| then []
    else if !vs[j].isAssigned && |vs[j].domain| <= mini then
      var rest := TiesFrom(vs, j + 1, |vs[j].domain|);
      assert forall q :: 0 <= q < |rest| ==> rest[q] in rest;
      [j] + rest
    else TiesFrom(vs, j + 1, mini)
  }

  /** The list `mrvtie`. */
  function Ties(vs: seq<Var>): (r: seq<nat>)
    ensures Increasing(r)
    ensures forall v: nat :: v in r <==> Candidate(vs, v)
  {
    TiesFrom(vs, 0, Sentinel)
  }

  /** `MRVwithTieBreaker`: with no candidate, none; with one, that one; with several,
      the first candidate with the most unassigned neighbours, and an `IndexError`
      when no candidate has any unassigned neighbour. */
  function TieBreak(net: Net): (r: Result<Option<nat>>)
    ensures r == Ok(None) <==> forall v :: 0 <= v < |net.vars| ==> !Candidate(net.vars, v)
    ensures r.Ok? && r.value.Some? ==> Candidate(net.vars, r.value.value)
    ensures r.Ok? && r.value.Some? ==>
              forall k :: 0 <= k < |net.vars| && Candidate(net.vars, k) && k != r.value.value ==>
                UnassignedNeighbors(net, k) <= UnassignedNeighbors(net, r.value.value)
                && (k < r.value.value ==> UnassignedNeighbors(net, k) < UnassignedNeighbors(net, r.value.value))
    ensures r.Err? <==>
              (exists a, b :: 0 <= a < b < |net.vars| && Candidate(net.vars, a) && Candidate(net.vars, b))
              && forall k :: 0 <= k < |net.vars| && Candidate(net.vars, k) ==> UnassignedNeighbors(net, k) == 0
  {
    var ts := Ties(net.vars);
    if |ts| == 0 then
      assert forall v :: 0 <= v < |net.vars| ==> !Candidate(net.vars, v) by {
        assert forall v: nat :: v !in ts;
      }
      Ok(None)
    else if |ts| == 1 then
      assert ts[0] in ts;
      assert forall k :: 0 <= k < |net.vars| && Candidate(net.vars, k) ==> k == ts[0] by {
        assert forall k: nat :: k in ts ==> k == ts[0];
      }
      Ok(Some(ts[0]))
    else
      assert ts[0] in ts && ts[1] in ts && ts[0] < ts[1];
      match MostNeighbors(net, ts)
      case None =>
        assert forall k :: 0 <= k < |net.vars| && Candidate(net.vars, k) ==> UnassignedNeighbors(net, k) == 0 by {
          forall k | 0 <= k < |net.vars| && Candidate(net.vars, k) ensures UnassignedNeighbors(net, k) == 0 {
            assert k in ts;
          }
        }
        Err("IndexError: list index out of range")
      case Some(v) =>
        assert forall k :: 0 <= k < |net.vars| && Candidate(net.vars, k) ==> k in ts;
        Ok(Some(v))
  }

  /** A candidate with strictly more unassigned neighbours than every other candidate
      is the one the tie-break selector picks, and it raises nothing. */
  lemma TieBreakPicksStrictMax(net: Net, v: nat)
    requires Candidate(net.vars, v)
    requires forall k :: 0 <= k < |net.vars| && Candidate(net.vars, k) && k != v ==>
               UnassignedNeighbors(net, k) < UnassignedNeighbors(net, v)
    ensures TieBreak(net) == Ok(Some(v))
  {
    var r := TieBreak(net);
    assert r != Ok(None);
    assert !r.Err?;
    var w := r.value.value;
    assert w != v ==> UnassignedNeighbors(net, v) <= UnassignedNeighbors(net, w);
  }

  /** On a valid network whose alphabet is no larger than the sentinel, the tie-break
      selector reports none exactly when every cell is assigned. */
  lemma TieBreakNoneIffAllAssigned(net: Net)
    requires Valid(net) && net.size <= Sentinel
    ensures TieBreak(net) == Ok(None) <==> AllAssigned(net)
  {
    if !AllAssigned(net) {
      var j := FirstUnassigned(net).value;
      AlphabetBoundsSize(net.vars[j].domain, net.size);
      assert Candidate(net.vars, j);
    }
  }

  // ------------------------------------------------------------------
  // selectNextVariable
  // ------------------------------------------------------------------

  /** The selector each name chooses; any other name gets the first unassigned cell.
      The two tie-break names are the only ones that can fail. */
  function SelectNextVariable(net: Net, varOrder: string): (r: Result<Option<nat>>)
    ensures r.Ok? && r.value.Some? ==> r.value.value < |net.vars| && !net.vars[r.value.value].isAssigned
    ensures r.Err? ==> varOrder == "MRVwithTieBreaker" || varOrder == "tournVar"
    ensures AllAssigned(net) ==> r == Ok(None)
    ensures varOrder != "Degree" && varOrder != "MRVwithTieBreaker" && varOrder != "tournVar" ==>
              (r == Ok(None) <==> AllAssigned(net))
    ensures varOrder == "MinimumRemainingValue" ==> r.Ok? && (r.value.Some? ==> MinRemaining(net, r.value.value))
    ensures varOrder == "MinimumRemainingValue" ==> r == Ok(Mrv(net))
    ensures varOrder == "Degree" ==> r == Ok(Degree(net))
    ensures varOrder == "MRVwithTieBreaker" || varOrder == "tournVar" ==> r == TieBreak(net)
    ensures (varOrder != "MinimumRemainingValue" && varOrder != "Degree" && varOrder != "MRVwithTieBreaker"
             && varOrder != "tournVar") ==> r == Ok(FirstUnassigned(net))
  {
    if varOrder == "MinimumRemainingValue" then Ok(Mrv(net))
    else if varOrder == "Degree" then Ok(Degree(net))
    else if varOrder == "MRVwithTieBreaker" || varOrder == "tournVar" then TieBreak(net)
    else Ok(FirstUnassigned(net))
  }
}

=== FILE: solver.dfy ===
/** The backtracking search: pick a cell, try its values in the configured order,
    propagate with the configured check, recurse, and undo the trail on failure. */
module Solver {
  import opened Wrappers
  import opened Domain
  import opened Network
  import opened Trail
  import opened Consistency
  import opened Selectors
  import opened Orderings

  /** The three heuristic names the solver is built with. */
  datatype Config = Config(valOrder: string, varOrder: string, check: string)

  /** How a search ends: with `hassolution` set, with every value tried and nothing
      found, or with the exception the tie-break selector can raise. */
  datatype Search = Found(state: State) | Exhausted(state: State) | Crashed(state: State)

  /** The checks that run the naked-single count. */
  predicate NeedsFull(cfg: Config)
  {
    cfg.check == "norvigCheck" || cfg.check == "tournCC"
  }

  /** A state the search can run on under `cfg`. */
  predicate Ready(st: State, cfg: Config)
  {
    StateValid(st) && (NeedsFull(cfg) ==> Full(st.net))
  }

  /** `t`'s trail continues `s`'s: nothing below `s`'s top was popped. */
  predicate Extends(s: State, t: State)
  {
    |s.trail| <= |t.trail| && t.trail[..|s.trail|] == s.trail
  }

  lemma ExtendsTransitive(a: State, b: State, c: State)
    requires Extends(a, b) && Extends(b, c)
    ensures Extends(a, c)
  {
    assert c.trail[..|a.trail|] == c.trail[..|b.trail|][..|a.trail|];
  }

  /** A state logged above a marker placed on `s` keeps all of `s`'s trail. */
  lemma LoggedExtends(s: State, t: State)
    requires Logged(PlaceMarker(s), t)
    ensures Extends(s, t)
  {
    assert t.trail[..|s.trail|] == t.trail[..|s.trail| + 1][..|s.trail|];
  }

  /** Place a marker, record the cell and assign it `x`: above a new marker, the cell
      is recorded and then holds `x` alone; nothing else changes, and the change is
      logged above the marker. */
  function Placed(st: State, v: nat, x: int): (r: State)
    requires StateValid(st) && v < |st.net.vars| && x in st.net.vars[v].domain
    ensures StateValid(r) && Logged(PlaceMarker(st), r)
    ensures r.net.vars[v] == Var({x}, true)
    ensures forall j :: 0 <= j < |st.net.vars| && j != v ==> r.net.vars[j] == st.net.vars[j]
    ensures Full(st.net) ==> Full(r.net)
  {
    var marked := PlaceMarker(st);
    var pushed := Push(marked, v);
    var placed := State(Assign(pushed.net, v, x), pushed.trail);
    PushThenSetLogged(marked, v, Var({x}, true));
    assert VarValid(Var({x}, true), st.net.size);
    assert StateValid(placed) by {
      assert forall p :: 0 <= p < |placed.trail| ==> EntryValid(placed.trail[p], placed.net) by {
        assert forall p :: 0 <= p < |st.trail| ==> placed.trail[p] == st.trail[p];
      }
    }
    placed
  }

  /** One turn of the value loop up to the recursive call: place the value as
      `Placed` does, then run the configured check on the constraints that contain
      the cell; the attempt passes exactly when that check does. The cell stays
      assigned `x`, so one cell fewer is open; everything changed is logged above the
      new marker; and a passing check leaves a consistent network consistent. */
  function Attempt(st: State, cfg: Config, v: nat, x: int): (r: Outcome)
    requires Ready(st, cfg) && v < |st.net.vars| && !st.net.vars[v].isAssigned && x in st.net.vars[v].domain
    ensures Ready(r.state, cfg) && Refines(st.net, r.state.net)
    ensures Logged(PlaceMarker(st), r.state)
    ensures r.state.net.vars[v] == Var({x}, true)
    ensures Unassigned(r.state.net.vars) < Unassigned(st.net.vars)
    ensures r.ok && AllConsistent(st.net) ==> AllConsistent(r.state.net)
  {
    var marked := PlaceMarker(st);
    var placed := Placed(st, v, x);
    assert placed.net == Assign(st.net, v, x);
    var mods := ConstraintsOf(placed.net, v);
    var r := CheckConsistency(placed, cfg.check, mods);
    LoggedTransitive(marked, placed, r.state);
    RefinesTransitive(st.net, placed.net, r.state.net);
    AttemptFacts(st, placed, r, v, x, mods);
    r
  }

  lemma AttemptFacts(st: State, placed: State, r: Outcome, v: nat, x: int, mods: seq<nat>)
    requires Valid(st.net) && v < |st.net.vars| && !st.net.vars[v].isAssigned
    requires placed.net == Assign(st.net, v, x) && mods == ConstraintsOf(placed.net, v)
    requires Refines(placed.net, r.state.net)
    requires (r.ok && forall m :: 0 <= m < |placed.net.constraints| && m !in mods ==> Consistent(placed.net, placed.net.constraints[m]))
             ==> AllConsistent(r.state.net)
    ensures r.state.net.vars[v] == Var({x}, true)
    ensures Unassigned(r.state.net.vars) < Unassigned(st.net.vars)
    ensures r.ok && AllConsistent(st.net) ==> AllConsistent(r.state.net)
  {
    UnassignedMonotone(st.net.vars, r.state.net.vars);
    forall m | 0 <= m < |placed.net.constraints| && m !in mods
      ensures Consistent(placed.net, placed.net.constraints[m]) <==> Consistent(st.net, st.net.constraints[m])
    {
      MembersDecideConsistency(st.net, placed.net, st.net.constraints[m]);
    }
  }

  /** `solve`: ask the selector for a cell; with none, the search has its solution;
      otherwise try the cell's values. A `Found` state is one the selector has nothing
      left to choose in, an `Exhausted` search hands back exactly the state it was
      given, only the tie-break selector can crash, assigned cells are never changed,
      and a consistent start gives a consistent solution. */
  function Solve(st: State, cfg: Config): (r: Search)
    requires Ready(st, cfg)
    ensures Ready(r.state, cfg) && Refines(st.net, r.state.net) && Extends(st, r.state)
    ensures SelectNextVariable(st.net, cfg.varOrder) == Ok(None) ==> r == Found(st)
    ensures r.Found? ==> SelectNextVariable(r.state.net, cfg.varOrder) == Ok(None)
    ensures r.Exhausted? ==> r.state == st
    ensures r.Crashed? ==> cfg.varOrder == "MRVwithTieBreaker" || cfg.varOrder == "tournVar"
    ensures r.Found? && AllConsistent(st.net) ==> AllConsistent(r.state.net)
    decreases Unassigned(st.net.vars), 1, 0
  {
    match SelectNextVariable(st.net, cfg.varOrder)
    case Err(_) => Crashed(st)
    case Ok(None) => Found(st)
    case Ok(Some(v)) => TryValues(st, cfg, v, GetNextValues(st.net, v, cfg.valOrder), 0)
  }

  /** One value of the loop: the forward step, then the recursive search when the
      check passes, and nothing found when it fails. A step that finds nothing leaves
      a state logged above the marker it placed, which is what lets the undo that
      follows restore `st`. */
  function Step(st: State, cfg: Config, v: nat, x: int): (r: Search)
    requires Ready(st, cfg) && v < |st.net.vars| && !st.net.vars[v].isAssigned && x in st.net.vars[v].domain
    ensures Ready(r.state, cfg) && Refines(st.net, r.state.net) && Extends(st, r.state)
    ensures r.Found? ==> SelectNextVariable(r.state.net, cfg.varOrder) == Ok(None)
    ensures r.Exhausted? ==> Logged(PlaceMarker(st), r.state)
    ensures r.Crashed? ==> cfg.varOrder == "MRVwithTieBreaker" || cfg.varOrder == "tournVar"
    ensures r.Found? && AllConsistent(st.net) ==> AllConsistent(r.state.net)
    decreases Unassigned(st.net.vars), 0, 0
  {
    var chk := Attempt(st, cfg, v, x);
    LoggedExtends(st, chk.state);
    if chk.ok then
      var sub := Solve(chk.state, cfg);
      ExtendsTransitive(st, chk.state, sub.state);
      RefinesTransitive(st.net, chk.state.net, sub.state.net);
      sub
    else
      Exhausted(chk.state)
  }

  /** The value loop of `solve`, at position `i` of the offered values. */
  function TryValues(st: State, cfg: Config, v: nat, values: seq<int>, i: nat): (r: Search)
    requires Ready(st, cfg) && v < |st.net.vars| && !st.net.vars[v].isAssigned
    requires forall p :: 0 <= p < |values| ==> values[p] in st.net.vars[v].domain
    requires i <= |values|
    ensures Ready(r.state, cfg) && Refines(st.net, r.state.net) && Extends(st, r.state)
    ensures r.Found? ==> SelectNextVariable(r.state.net, cfg.varOrder) == Ok(None)
    ensures r.Exhausted? ==> r.state == st
    ensures r.Crashed? ==> cfg.varOrder == "MRVwithTieBreaker" || cfg.varOrder == "tournVar"
    ensures r.Found? && AllConsistent(st.net) ==> AllConsistent(r.state.net)
    decreases Unassigned(st.net.vars), 0, |values| - i
  {
    if i == |values| then Exhausted(st)
    else
      var sub := Step(st, cfg, v, values[i]);
      if !sub.Exhausted? then sub
      else
        UndoRestoresMarkedState(st, sub.state);
        TryValues(Undo(sub.state), cfg, v, values, i + 1)
  }

  /** An attempt places the value as `Placed` does and then passes exactly when the
      configured check, run on the constraints that contain the cell, passes. */
  lemma AttemptRunsCheck(st: State, cfg: Config, v: nat, x: int)
    requires Ready(st, cfg) && v < |st.net.vars| && !st.net.vars[v].isAssigned && x in st.net.vars[v].domain
    ensures Attempt(st, cfg, v, x) == CheckConsistency(Placed(st, v, x), cfg.check, ConstraintsOf(Placed(st, v, x).net, v))
  {
  }

  /** A step whose attempt fails finds nothing and keeps the attempt's state for the
      undo; a step whose attempt passes is the search from the attempt's state. */
  lemma StepFollowsAttempt(st: State, cfg: Config, v: nat, x: int)
    requires Ready(st, cfg) && v < |st.net.vars| && !st.net.vars[v].isAssigned && x in st.net.vars[v].domain
    ensures !Attempt(st, cfg, v, x).ok ==> Step(st, cfg, v, x) == Exhausted(Attempt(st, cfg, v, x).state)
    ensures Attempt(st, cfg, v, x).ok ==> Step(st, cfg, v, x) == Solve(Attempt(st, cfg, v, x).state, cfg)
  {
  }

  /** After a value whose step finds nothing, the undo restores `st` exactly, so the
      loop goes on with the next value from `st` itself. */
  lemma TryValuesSkip(st: State, cfg: Config, v: nat, values: seq<int>, i: nat)
    requires Ready(st, cfg) && v < |st.net.vars| && !st.net.vars[v].isAssigned
    requires forall p :: 0 <= p < |values| ==> values[p] in st.net.vars[v].domain
    requires i < |values| && Step(st, cfg, v, values[i]).Exhausted?
    ensures TryValues(st, cfg, v, values, i) == TryValues(st, cfg, v, values, i + 1)
  {
    hide Step;
    UndoRestoresMarkedState(st, Step(st, cfg, v, values[i]).state);
  }

  /** One turn of the loop: with no value left it is exhausted at `st`; it stops at a
      value whose step finds something and moves on past one whose step finds
      nothing. */
  lemma TryValuesAt(st: State, cfg: Config, v: nat, values: seq<int>, i: nat)
    requires Ready(st, cfg) && v < |st.net.vars| && !st.net.vars[v].isAssigned
    requires forall p :: 0 <= p < |values| ==> values[p] in st.net.vars[v].domain
    requires i <= |values|
    ensures i == |values| ==> TryValues(st, cfg, v, values, i) == Exhausted(st)
    ensures i < |values| && !Step(st, cfg, v, values[i]).Exhausted? ==>
              TryValues(st, cfg, v, values, i) == Step(st, cfg, v, values[i])
    ensures i < |values| && Step(st, cfg, v, values[i]).Exhausted? ==>
              TryValues(st, cfg, v, values, i) == TryValues(st, cfg, v, values, i + 1)
  {
    hide Step;
    if i < |values| && Step(st, cfg, v, values[i]).Exhausted? {
      TryValuesSkip(st, cfg, v, values, i);
    }
  }

  /** Whether each value's step from position `i` on, run from `st`, finds nothing. */
  function ExhaustionFrom(st: State, cfg: Config, v: nat, values: seq<int>, i: nat): (r: seq<bool>)
    requires Ready(st, cfg) && v < |st.net.vars| && !st.net.vars[v].isAssigned
    requires forall p :: 0 <= p < |values| ==> values[p] in st.net.vars[v].domain
    requires i <= |values|
    ensures |r| == |values| - i
    decreases |values| - i
  {
    if i == |values| then [] else [Step(st, cfg, v, values[i]).Exhausted?] + ExhaustionFrom(st, cfg, v, values, i + 1)
  }

  /** One position's flag, followed by the flags of the positions after it. */
  lemma ExhaustionCons(st: State, cfg: Config, v: nat, values: seq<int>, i: nat)
    requires Ready(st, cfg) && v < |st.net.vars| && !st.net.vars[v].isAssigned
    requires forall p :: 0 <= p < |values| ==> values[p] in st.net.vars[v].domain
    requires i < |values|
    ensures ExhaustionFrom(st, cfg, v, values, i)
            == [Step(st, cfg, v, values[i]).Exhausted?] + ExhaustionFrom(st, cfg, v, values, i + 1)
  {
    hide Step;
  }

  /** The flag of position `q` is its step's verdict. */
  lemma {:induction false} ExhaustionAt(st: State, cfg: Config, v: nat, values: seq<int>, i: nat, q: nat)
    requires Ready(st, cfg) && v < |st.net.vars| && !st.net.vars[v].isAssigned
    requires forall p :: 0 <= p < |values| ==> values[p] in st.net.vars[v].domain
    requires i <= q < |values|
    ensures ExhaustionFrom(st, cfg, v, values, i)[q - i] == Step(st, cfg, v, values[q]).Exhausted?
    decreases q - i
  {
    hide Step, ExhaustionFrom;
    ExhaustionCons(st, cfg, v, values, i);
    if q > i {
      ExhaustionAt(st, cfg, v, values, i + 1, q);
    }
  }

  /** The first position from `i` on whose flag is down, or `|flags|` when there is
      none. */
  function FirstDown(flags: seq<bool>, i: nat): (k: nat)
    requires i <= |flags|
    ensures i <= k <= |flags|
    ensures k < |flags| ==> !flags[k]
    ensures forall q :: i <= q < k ==> flags[q]
    decreases |flags| - i
  {
    if i == |flags| || !flags[i] then i else FirstDown(flags, i + 1)
  }

  /** The loop from position `i` on returns the step of the first value whose step
      finds something, and is exhausted from `st` itself when there is none. */
  lemma {:induction false} TryValuesIsFirstFound(st: State, cfg: Config, v: nat, values: seq<int>, i: nat)
    requires Ready(st, cfg) && v < |st.net.vars| && !st.net.vars[v].isAssigned
    requires forall p :: 0 <= p < |values| ==> values[p] in st.net.vars[v].domain
    requires i <= |values|
    ensures var k := FirstDown(ExhaustionFrom(st, cfg, v, values, 0), i);
            TryValues(st, cfg, v, values, i) == if k < |values| then Step(st, cfg, v, values[k]) else Exhausted(st)
    decreases |values| - i
  {
    hide Step, TryValues, ExhaustionFrom;
    TryValuesAt(st, cfg, v, values, i);
    if i < |values| {
      ExhaustionAt(st, cfg, v, values, 0, i);
      if Step(st, cfg, v, values[i]).Exhausted? {
        TryValuesIsFirstFound(st, cfg, v, values, i + 1);
      }
    }
  }

  /** The values are tried in turn: the loop is exhausted exactly when every value's
      step, each run from `st`, is. */
  lemma TryValuesExhaustedIff(st: State, cfg: Config, v: nat, values: seq<int>)
    requires Ready(st, cfg) && v < |st.net.vars| && !st.net.vars[v].isAssigned
    requires forall p :: 0 <= p < |values| ==> values[p] in st.net.vars[v].domain
    ensures TryValues(st, cfg, v, values, 0).Exhausted?
            <==> forall p :: 0 <= p < |values| ==> Step(st, cfg, v, values[p]).Exhausted?
  {
    hide Step, TryValues, ExhaustionFrom;
    TryValuesIsFirstFound(st, cfg, v, values, 0);
    var k := FirstDown(ExhaustionFrom(st, cfg, v, values, 0), 0);
    if k < |values| {
      ExhaustionAt(st, cfg, v, values, 0, k);
    } else {
      forall p | 0 <= p < |values| ensures Step(st, cfg, v, values[p]).Exhausted? {
        ExhaustionAt(st, cfg, v, values, 0, p);
      }
    }
  }

  /** A loop that is not exhausted returns the step of the first value whose step is
      not exhausted, every earlier value having found nothing. */
  lemma TryValuesFirstSuccess(st: State, cfg: Config, v: nat, values: seq<int>)
    requires Ready(st, cfg) && v < |st.net.vars| && !st.net.vars[v].isAssigned
    requires forall p :: 0 <= p < |values| ==> values[p] in st.net.vars[v].domain
    ensures !TryValues(st, cfg, v, values, 0).Exhausted? ==>
              exists p :: 0 <= p < |values| && TryValues(st, cfg, v, values, 0) == Step(st, cfg, v, values[p])
                          && forall q :: 0 <= q < p ==> Step(st, cfg, v, values[q]).Exhausted?
  {
    hide Step, TryValues, ExhaustionFrom;
    TryValuesIsFirstFound(st, cfg, v, values, 0);
    var k := FirstDown(ExhaustionFrom(st, cfg, v, values, 0), 0);
    if k < |values| {
      forall q | 0 <= q < k ensures Step(st, cfg, v, values[q]).Exhausted? {
        ExhaustionAt(st, cfg, v, values, 0, q);
      }
      assert TryValues(st, cfg, v, values, 0) == Step(st, cfg, v, values[k]);
    }
  }

  /** The search ends without a solution exactly when the selector chose a cell and
      every value offered for that cell fails its step from this very state; a
      selector error is a crash at once. */
  lemma SolveExhaustedIff(st: State, cfg: Config)
    requires Ready(st, cfg)
    ensures Solve(st, cfg).Exhausted? <==>
              var sel := SelectNextVariable(st.net, cfg.varOrder);
              && sel.Ok? && sel.value.Some?
              && var vs := GetNextValues(st.net, sel.value.value, cfg.valOrder);
                 forall p :: 0 <= p < |vs| ==> Step(st, cfg, sel.value.value, vs[p]).Exhausted?
    ensures SelectNextVariable(st.net, cfg.varOrder).Err? ==> Solve(st, cfg) == Crashed(st)
  {
    hide Step;
    var sel := SelectNextVariable(st.net, cfg.varOrder);
    if sel.Ok? && sel.value.Some? {
      var v := sel.value.value;
      var vs := GetNextValues(st.net, v, cfg.valOrder);
      assert Solve(st, cfg) == TryValues(st, cfg, v, vs, 0);
      TryValuesExhaustedIff(st, cfg, v, vs);
    }
  }

  /** With any selector but Degree (and N within the tie-break's sentinel), a found
      state has every cell assigned, whatever the start: the completeness check
      before success never finds an open cell. */
  lemma FoundIsComplete(st: State, cfg: Config)
    requires Ready(st, cfg)
    requires cfg.varOrder != "Degree"
    requires cfg.varOrder == "MRVwithTieBreaker" || cfg.varOrder == "tournVar" ==> st.net.size <= Sentinel
    ensures Solve(st, cfg).Found? ==> AllAssigned(Solve(st, cfg).state.net)
  {
    var r := Solve(st, cfg);
    if r.Found? && (cfg.varOrder == "MRVwithTieBreaker" || cfg.varOrder == "tournVar") {
      TieBreakNoneIffAllAssigned(r.state.net);
    }
  }

  /** With a consistent start and a selector that reports none only when every cell
      is assigned, a found state is a solution: every cell assigned, every constraint
      satisfied, and every cell assigned at the start kept as it was. */
  lemma FoundIsSolution(st: State, cfg: Config)
    requires Ready(st, cfg) && AllConsistent(st.net)
    requires cfg.varOrder != "Degree"
    requires cfg.varOrder == "MRVwithTieBreaker" || cfg.varOrder == "tournVar" ==> st.net.size <= Sentinel
    ensures var r := Solve(st, cfg);
            r.Found? ==>
              && AllAssigned(r.state.net) && AllConsistent(r.state.net)
              && forall j :: 0 <= j < |st.net.vars| && st.net.vars[j].isAssigned ==> r.state.net.vars[j] == st.net.vars[j]
  {
    FoundIsComplete(st, cfg);
  }
}

=== FILE: trail.dfy ===
/** The undo log that lets the search backtrack without copying the network. A marker
    opens a choice point; a snapshot records one variable's domain and assigned flag as
    they were just before the engine changed it. Undo pops back to (and including) the
    most recent marker, restoring snapshots newest first. */
module Trail {
  import opened Wrappers
  import opened Network

  datatype Entry = Marker | Snapshot(idx: nat, domain: set<int>, isAssigned: bool)

  /** The mutable state the engine threads through the search. */
  datatype State = State(net: Net, trail: seq<Entry>)

  predicate EntryValid(e: Entry, net: Net)
  {
    e.Snapshot? ==> e.idx < |net.vars| && VarValid(Var(e.domain, e.isAssigned), net.size)
  }

  predicate TrailValid(st: State)
  {
    forall p :: 0 <= p < |st.trail| ==> EntryValid(st.trail[p], st.net)
  }

  /** A well-formed network, and a trail whose snapshots name its variables and hold
      cell states the network could have. */
  predicate StateValid(st: State)
  {
    Valid(st.net) && TrailValid(st)
  }

  predicate NoMarker(es: seq<Entry>)
  {
    forall p :: 0 <= p < |es| ==> es[p].Snapshot?
  }

  /** The oldest snapshot of variable `j` among `es`, if any. */
  function Earliest(es: seq<Entry>, j: nat): Option<Var>
  {
    if es == [] then None
    else if es[0].Snapshot? && es[0].idx == j then Some(Var(es[0].domain, es[0].isAssigned))
    else Earliest(es[1..], j)
  }

  lemma {:induction false} EarliestAppend(a: seq<Entry>, b: seq<Entry>, j: nat)
    ensures Earliest(a + b, j) == if Earliest(a, j).Some? then Earliest(a, j) else Earliest(b, j)
  {
    if a != [] {
      assert (a + b)[1..] == a[1..] + b;
      EarliestAppend(a[1..], b, j);
    } else {
      assert a + b == b;
    }
  }

  /** Every snapshot names a variable of the network, which is all undo needs. */
  predicate SnapshotsIndexed(st: State)
  {
    forall p :: 0 <= p < |st.trail| && st.trail[p].Snapshot? ==> st.trail[p].idx < |st.net.vars|
  }

  /** `placeTrailMarker`: opens a choice point without touching the network; an undo
      straight after it gives back exactly the state before it. */
  function PlaceMarker(st: State): (r: State)
    ensures r.net == st.net && |r.trail| == |st.trail| + 1 && r.trail[|st.trail|].Marker?
    ensures StateValid(st) ==> StateValid(r)
    ensures SnapshotsIndexed(st) ==> SnapshotsIndexed(r) && Undo(r) == st
  {
    st.(trail := st.trail + [Marker])
  }

  /** Record variable `i`'s current domain and assigned flag. The
      network is untouched, the record gives back the cell as it is, and undoing a
      trail that ends in it does what undoing the trail without it does. */
  function Push(st: State, i: nat): (r: State)
    requires i < |st.net.vars|
    ensures r.net == st.net && |r.trail| == |st.trail| + 1 && r.trail[..|st.trail|] == st.trail
    ensures Earliest(r.trail[|st.trail|..], i) == Some(st.net.vars[i])
    ensures StateValid(st) ==> StateValid(r)
    ensures SnapshotsIndexed(st) ==> SnapshotsIndexed(r) && Undo(r) == Undo(st)
  {
    var r := st.(trail := st.trail + [Snapshot(i, st.net.vars[i].domain, st.net.vars[i].isAssigned)]);
    assert r.trail[..|st.trail|] == st.trail;
    assert st.net.(vars := st.net.vars[i := Var(st.net.vars[i].domain, st.net.vars[i].isAssigned)]) == st.net;
    r
  }

  /** Where the popped region of `t` starts: just after the last marker, or at the
      bottom when `t` holds no marker. `kept` is the length of what undo keeps. */
  function RegionStart(t: seq<Entry>, kept: nat): nat
  {
    if kept < |t| && t[kept].Marker? then kept + 1 else 0
  }

  /** Pop entries back to the most recent marker, restoring each
      snapshot, newest first; with no marker the whole trail is unwound. */
  function Undo(st: State): (r: State)
    requires forall p :: 0 <= p < |st.trail| && st.trail[p].Snapshot? ==> st.trail[p].idx < |st.net.vars|
    ensures r.net.size == st.net.size && r.net.constraints == st.net.constraints
    ensures |r.net.vars| == |st.net.vars|
    ensures |r.trail| <= |st.trail| && r.trail == st.trail[..|r.trail|]
    decreases |st.trail|
  {
    if st.trail == [] then st
    else
      var n := |st.trail| - 1;
      match st.trail[n]
      case Marker => State(st.net, st.trail[..n])
      case Snapshot(i, d, a) => Undo(State(st.net.(vars := st.net.vars[i := Var(d, a)]), st.trail[..n]))
  }

  /** What undo keeps ends just before the trail's last marker, or is empty when the
      trail holds no marker. */
  lemma {:induction false} UndoStopsAtLastMarker(st: State)
    requires forall p :: 0 <= p < |st.trail| && st.trail[p].Snapshot? ==> st.trail[p].idx < |st.net.vars|
    ensures var r := Undo(st);
            || (r.trail == [] && NoMarker(st.trail))
            || (|r.trail| < |st.trail| && st.trail[|r.trail|].Marker? && NoMarker(st.trail[|r.trail| + 1..]))
    decreases |st.trail|
  {
    if st.trail != [] {
      var n := |st.trail| - 1;
      var rest := st.trail[..n];
      if st.trail[n].Marker? {
        assert st.trail[n + 1..] == [];
      } else {
        var e := st.trail[n];
        var st' := State(st.net.(vars := st.net.vars[e.idx := Var(e.domain, e.isAssigned)]), rest);
        UndoStopsAtLastMarker(st');
        var r := Undo(st');
        assert Undo(st) == r;
        if r.trail == [] && NoMarker(rest) {
          assert NoMarker(st.trail);
        } else {
          assert st.trail[|r.trail| + 1..] == rest[|r.trail| + 1..] + [e];
        }
      }
    }
  }

  /** `r` holds, for each variable recorded in `st`'s trail from `from` on, its OLDEST
      recorded state there (first record wins), and every other variable of `st`. */
  predicate RestoresOldest(st: State, r: Net, from: nat)
  {
    && from <= |st.trail| && |r.vars| == |st.net.vars|
    && forall j :: 0 <= j < |st.net.vars| ==>
         var w := Earliest(st.trail[from..], j);
         r.vars[j] == if w.Some? then w.value else st.net.vars[j]
  }

  /** Undo gives each variable recorded since the last marker its oldest recorded state
      there, and leaves every other variable alone. */
  lemma {:induction false} UndoRestoresOldest(st: State)
    requires forall p :: 0 <= p < |st.trail| && st.trail[p].Snapshot? ==> st.trail[p].idx < |st.net.vars|
    ensures RestoresOldest(st, Undo(st).net, RegionStart(st.trail, |Undo(st).trail|))
    decreases |st.trail|
  {
    if st.trail != [] {
      var n := |st.trail| - 1;
      var rest := st.trail[..n];
      if st.trail[n].Marker? {
        assert RegionStart(st.trail, n) == n + 1;
        assert st.trail[n + 1..] == [];
      } else {
        var e := st.trail[n];
        var st' := State(st.net.(vars := st.net.vars[e.idx := Var(e.domain, e.isAssigned)]), rest);
        UndoRestoresOldest(st');
        var r := Undo(st');
        assert Undo(st) == r;
        var from := RegionStart(st'.trail, |r.trail|);
        assert from == RegionStart(st.trail, |r.trail|);
        UndoRestoresOldestStep(st, st', r.net, from);
      }
    }
  }

  /** The inductive step of `UndoRestoresOldest`: undoing the newest snapshot first and
      then the rest gives each variable its oldest snapshot in the region. */
  lemma UndoRestoresOldestStep(st: State, st': State, r: Net, from: nat)
    requires st.trail != [] && st.trail[|st.trail| - 1].Snapshot?
    requires st.trail[|st.trail| - 1].idx < |st.net.vars|
    requires var e := st.trail[|st.trail| - 1];
             st' == State(st.net.(vars := st.net.vars[e.idx := Var(e.domain, e.isAssigned)]), st.trail[..|st.trail| - 1])
    requires RestoresOldest(st', r, from)
    ensures RestoresOldest(st, r, from)
  {
    var e := st.trail[|st.trail| - 1];
    assert st.trail[from..] == st'.trail[from..] + [e];
    assert [e][1..] == [];
    forall j | 0 <= j < |st.net.vars|
      ensures var w := Earliest(st.trail[from..], j);
              r.vars[j] == if w.Some? then w.value else st.net.vars[j]
    {
      EarliestAppend(st'.trail[from..], [e], j);
    }
  }

  /** `t` is reached from `s` by recording each variable before first changing it:
      the trail only grows, by snapshots, and every variable is either unchanged and
      unrecorded, or its oldest new snapshot holds its state in `s`. */
  predicate Logged(s: State, t: State)
  {
    && s.net.size == t.net.size && s.net.constraints == t.net.constraints
    && |s.net.vars| == |t.net.vars|
    && |s.trail| <= |t.trail| && t.trail[..|s.trail|] == s.trail
    && NoMarker(t.trail[|s.trail|..])
    && forall j :: 0 <= j < |s.net.vars| ==>
         var w := Earliest(t.trail[|s.trail|..], j);
         if w.Some? then w.value == s.net.vars[j] else t.net.vars[j] == s.net.vars[j]
  }

  lemma LoggedReflexive(s: State)
    ensures Logged(s, s)
  {
    assert s.trail[|s.trail|..] == [];
  }

  /** Recording a variable and then replacing its state is a logged change. */
  lemma PushThenSetLogged(s: State, i: nat, w: Var)
    requires i < |s.net.vars|
    ensures Logged(s, State(s.net.(vars := s.net.vars[i := w]), Push(s, i).trail))
  {
    var t := State(s.net.(vars := s.net.vars[i := w]), Push(s, i).trail);
    var e := Snapshot(i, s.net.vars[i].domain, s.net.vars[i].isAssigned);
    assert t.trail[|s.trail|..] == [e];
    forall j | 0 <= j < |s.net.vars|
      ensures var u := Earliest(t.trail[|s.trail|..], j);
              if u.Some? then u.value == s.net.vars[j] else t.net.vars[j] == s.net.vars[j]
    {
      assert [e][1..] == [];
    }
  }

  lemma {:induction false} LoggedTransitive(a: State, b: State, c: State)
    requires Logged(a, b) && Logged(b, c)
    ensures Logged(a, c)
  {
    var ra := b.trail[|a.trail|..];
    var rb := c.trail[|b.trail|..];
    assert c.trail[|a.trail|..] == ra + rb;
    assert NoMarker(ra + rb) by {
      forall p | 0 <= p < |ra + rb| ensures (ra + rb)[p].Snapshot? {
        if p >= |ra| {
          assert (ra + rb)[p] == rb[p - |ra|];
        }
      }
    }
    forall j | 0 <= j < |a.net.vars|
      ensures var w := Earliest(c.trail[|a.trail|..], j);
              if w.Some? then w.value == a.net.vars[j] else c.net.vars[j] == a.net.vars[j]
    {
      EarliestAppend(ra, rb, j);
    }
  }

  /** The trail inverse law: whatever logged changes follow a marker, undo restores
      the network and the trail exactly as they were before the marker was placed. */
  lemma {:induction false} UndoRestoresMarkedState(s: State, t: State)
    requires Logged(PlaceMarker(s), t)
    requires forall p :: 0 <= p < |t.trail| && t.trail[p].Snapshot? ==> t.trail[p].idx < |t.net.vars|
    ensures Undo(t) == s
  {
    var m := PlaceMarker(s);
    var r := Undo(t);
    UndoStopsAtLastMarker(t);
    UndoRestoresOldest(t);
    var region := t.trail[|m.trail|..];
    assert t.trail[|s.trail|] == Marker;
    assert NoMarker(t.trail[|s.trail| + 1..]) by {
      assert t.trail[|s.trail| + 1..] == region;
    }
    assert r.trail == s.trail;
    assert RegionStart(t.trail, |r.trail|) == |m.trail|;
    assert r.net.vars == s.net.vars;
  }
}

=== FILE: wrappers.dfy ===
/** Failure-carrying wrappers shared by the solver modules. */
module Wrappers {

  /** A value that may be absent; the solver's `None` results. */
  datatype Option<+T> = None | Some(value: T)

  /** The outcome of a computation that may raise instead of returning. */
  datatype Result<+T> = Ok(value: T) | Err(reason: string)
}
